=== FILE: README.md ===
# JAQS portfolio manager and backtest drivers, in Dafny

This project models the bookkeeping core of the JAQS trading framework.

The main part is the `PortfolioManager`, the strategy's single record of:

- its tasks, keyed by task id;
- the per-symbol, per-trade-date `TradeStat`: buy and sell "want" sizes and "filled" sizes;
- its positions and the set of held securities;
- the append-only trade log;
- the cash, derived from a cumulative net turnover.

The manager has three entry points that change state:

- `add_task` stores the task and reserves want sizes.
- `_on_trade` logs the fill. It moves the position, recomputes cash and moves the fill from want to filled. For a market trade it then re-checks the trade's task.
- `_on_order_status` copies the indication into the order book and into the task's orders. On Cancelled or Rejected it releases the unfilled remainder and re-checks the task.

The second part is the backtest drivers:

- the periodic-rebalance driver (`AlphaBacktestInstance`). It steps from rebalance date to rebalance date. It adjusts holdings for dividends, splits and delistings with synthetic trades (101010 and 202020), filters the universe before the open, and splits the cash after the open.
- the tick-driven driver's `process_quote`.
- the configuration check of `init_from_config`.

Modules:

- `Basic`: the value types (orders, trades, tasks and their payloads, positions, trade statistics, errors).
- `Ledger`: the pure rules of the manager: reservation, settlement, release, fills, cash formula, task completion, market value.
- `Portfolio`: the `PortfolioManager` class. Its fields are updated in place by its methods. `Valid()` holds four invariants:
  - holdings are the stored non-flat positions;
  - stored tasks are keyed by their own id;
  - every size is the signed sum of the logged fills;
  - cumulative turnover and cash follow from the log.
- `Plans`: the pure planning rules of the drivers: calendar step, adjust ratios, universe filter, cash split, delivery order, configuration.
- `Backtest`: the `AlphaBacktest` and `EventBacktest` classes.
- `Scenarios`: concrete runs of the manager.

Several things are inputs to the model:

- The trading calendar, the data view, the simulated gateway and the strategy are inputs, as functions and values.
- `_hook_strategy` (jaqs/trade/portfoliomanager.py:66-74) replaces the strategy's `on_order_status` and `on_trade` with the manager's handlers. The drivers, however, call the strategy's `on_trade_ind` (jaqs/trade/backtest.py:235, 266, 371, 608). The model assumes that the strategy forwards `on_trade_ind` to `on_trade`, and so to the manager's `_on_trade`. The strategy classes are not part of this model.
- The trade date that keys the trade statistics (`ctx.trade_date`) is a parameter.

Sizes, prices and cash are `real`, because `position_adjust` makes sizes fractional.

Where the system's documentation and its code disagree, the model follows the code:

- **Cash after a fill.** After buying 1000 at 10, one would expect cash to fall by the turnover. The code recomputes cash as `init_balance - (cum_net_turnover - current_pos * fill_price)`, where `current_pos` is the position after the fill. This counts the new position at its fill price, so cash stays at the starting balance (`Scenarios.FullFillTradeFirst`).
- **Order of delivery.** `process_quote` delivers the trade before the status. The completion check therefore runs while the task still holds the unfilled order, and the later Filled status does not re-check. A completely filled single order thus leaves its task Pending (`Scenarios.FullFillTradeFirst`). Delivered status-first, the same task becomes Done (`Scenarios.FullFillStatusFirst`).
- **Repeated cancellation.** A repeated Cancelled indication releases the remainder again (`Scenarios.RepeatedCancel`).

## Model

| member | source | states |
|---|---|---|
| Portfolio.PortfolioManager.constructor | jaqs/trade/portfoliomanager.py:43-60 | the empty manager of `__init__` with `init_from_config`'s balance: no tasks, orders, trades, positions or statistics, cash equal to the starting balance, every invariant holding |
| Portfolio.PortfolioManager.GetPos | jaqs/trade/portfoliomanager.py:134-140 | the size is the signed sum of the symbol's logged fills, and is 0 exactly when the symbol is not held |
| Portfolio.PortfolioManager.GetPosition | jaqs/trade/portfoliomanager.py:129-132 | present exactly for held symbols, with that symbol and a non-zero size equal to its net fills |
| Portfolio.PortfolioManager.GetTask | jaqs/trade/portfoliomanager.py:142-154 | present exactly for stored ids, and then it is the stored task, which carries that id |
| Portfolio.PortfolioManager.GetTradeStat | jaqs/trade/portfoliomanager.py:95-127 | `get_trade_stat` returns the stored entry or nothing; where it returns nothing, `_get_trade_stat` reads zero statistics for the symbol |
| Portfolio.PortfolioManager.UpdateTradeStatFromOrder | jaqs/trade/portfoliomanager.py:255-278 | the want size of the order's side moves by +entrust size, or by −entrust size on roll-back; a missing entry starts at zero |
| Ledger.ReserveRollBack | jaqs/trade/portfoliomanager.py:255-278 | reserving and then rolling back restores every symbol's statistics |
| Portfolio.PortfolioManager.AddTask | jaqs/trade/portfoliomanager.py:177-213 | the task is stored under its id, replacing any task with that id; `duplicate` says whether one was there; the want sizes of a single, batch or goal task's orders are reserved; a basket order is stored and then raises NotImplementedError; invariants kept |
| Ledger.ReserveAllWants | jaqs/trade/portfoliomanager.py:194-213 | after `add_task` each want size of a symbol rises by the total entrust size of that symbol's orders on that side; filled sizes and other dates' entries are unchanged |
| Ledger.CheckDone | jaqs/trade/portfoliomanager.py:353-391 | for the three order kinds the task becomes Done exactly when every order is finished (or it was Done), and is unchanged otherwise; any other kind raises NotImplementedError |
| Portfolio.HasUnfinished | jaqs/trade/portfoliomanager.py:364-370 | the flag loop answers exactly "some order is not finished" |
| Portfolio.PortfolioManager.UpdateTaskIfDone | jaqs/trade/portfoliomanager.py:353-391 | an unknown id changes nothing; otherwise the stored task is replaced as `CheckDone` decides, or NotImplementedError is raised and nothing changes |
| Ledger.CopyIntoGoal | jaqs/trade/portfoliomanager.py:425-430 | the entry keyed by the indication's entrust number now holds the indication; every other entry is unchanged; keys are kept, and distinct keys stay distinct |
| Ledger.CopyStatus | jaqs/trade/portfoliomanager.py:417-430 | the kind (each of place_order, place_batch_order, goal_portfolio, and "some other kind") and the number of orders are kept; the single order of place_order always takes the indication; a batch order, or a goal entry, takes it exactly when its entrust number (its key) matches; every other order is unchanged; unsupported kinds are untouched; well-formedness is preserved |
| Ledger.CopyStatusCompletes | jaqs/trade/portfoliomanager.py:417-430 | after the copy every order of the task is finished exactly when the indication is finished (if it reached an order) and every order it did not reach already was |
| Portfolio.CopyIntoMatching | jaqs/trade/portfoliomanager.py:421-424 | the in-place loop replaces exactly the batch orders with the indication's entrust number by the indication, leaving the rest (`CopyIntoBatch`) |
| Portfolio.PortfolioManager.CopyIntoTask | jaqs/trade/portfoliomanager.py:417-430 | only the indicated task changes, its payload becoming `CopyStatus` of the old one |
| Portfolio.PortfolioManager.ReleaseTradeStat | jaqs/trade/portfoliomanager.py:433-444 | the want size of the indication's side drops by entrust − fill, from zero statistics when absent |
| Portfolio.PortfolioManager.RecordStatus | jaqs/trade/portfoliomanager.py:409-447 | for a known, non-synthetic indication: the order book maps its entrust number to it and its task's orders take it; a Cancelled/Rejected one releases the remainder and re-checks the task as `CheckDone` decides (raising its NotImplementedError), any other status touches neither statistics nor task status; invariants kept |
| Portfolio.PortfolioManager.OnOrderStatus | jaqs/trade/portfoliomanager.py:393-466 | an unknown task or a 101010/202020 number changes nothing and is not forwarded; otherwise the order book maps the entrust number to the indication and the task's orders take it; only Cancelled/Rejected release the remainder and re-check the task; it raises exactly when a Cancelled/Rejected indication of a known, non-synthetic task re-checks a task of an unsupported kind, and then only NotImplementedError; a raised check is not forwarded; task ids and kinds are kept; invariants kept |
| Ledger.OrderLifecycle | jaqs/trade/portfoliomanager.py:433-444 | reserve, then fill f, then a cancel reporting f: the want size is back where it started and f is counted once, in filled on the order's side |
| Ledger.ApplyFill | jaqs/trade/portfoliomanager.py:609-634 | a zero fill changes nothing; otherwise only the symbol's size moves, by +fill for a buy and −fill otherwise, from 0 when absent; a flat position is dropped, and the stored keys are exactly the non-flat symbols |
| Portfolio.PortfolioManager.UpdatePositionByTradeInd | jaqs/trade/portfoliomanager.py:609-634 | the positions become `ApplyFill` of the old ones, and holdings stay equal to the stored positions |
| Ledger.FillConservesShares | jaqs/trade/portfoliomanager.py:611-626 | if every size is the signed sum of the logged fills, it still is after a fill is applied and logged |
| Portfolio.PortfolioManager.UpdateCashFromTradeInd | jaqs/trade/portfoliomanager.py:551-570 | the cumulative net turnover moves by ±price×size, and cash is the starting balance less (turnover − position after the fill × fill price) |
| Ledger.SettleConserves | jaqs/trade/portfoliomanager.py:589-607 | a fill moves exactly its size from want to filled on its side; want+filled is conserved on both sides; the other side and every other key are untouched |
| Portfolio.PortfolioManager.UpdateTradeStatFromTradeInd | jaqs/trade/portfoliomanager.py:589-607 | the statistics become `Settle` of the old ones |
| Portfolio.PortfolioManager.RecordFill | jaqs/trade/portfoliomanager.py:509-539 | the trade is appended; positions, turnover, cash and statistics move as above; share conservation and the cash ledger are kept |
| Portfolio.PortfolioManager.OnTrade | jaqs/trade/portfoliomanager.py:509-549 | the bookkeeping of `RecordFill`; a 101010/202020 trade, or one with an unknown task, leaves tasks alone; otherwise the task is re-checked as `CheckDone` decides; it raises exactly when the trade's known task is of an unsupported kind, and then only NotImplementedError; task ids and kinds are kept |
| Portfolio.PortfolioManager.MarketValue | jaqs/trade/portfoliomanager.py:639-672 | (float, frozen) are Σ price×size over held symbols not suspended and suspended; they add up to the whole holding's value; a held symbol without a price raises KeyError naming it |
| Ledger.MarketValuePartition | jaqs/trade/portfoliomanager.py:657-672 | each held symbol lands in exactly one bucket, and the buckets' sums add up to the whole |
| Scenarios.FullFillTradeFirst | jaqs/trade/portfoliomanager.py:509-549 | buy 1000 at 10, trade delivered first: position 1000, cash back at the starting balance, task still Pending |
| Scenarios.FullFillStatusFirst | jaqs/trade/portfoliomanager.py:393-466 | the same fill with the Filled status first: the task is Done |
| Scenarios.PartialFillThenCancel | jaqs/trade/portfoliomanager.py:433-447 | sell 500 of 1000, 300 filled, then cancelled: position 700, sell want 0, sell filled 300; Pending after the fill, Done after the cancellation |
| Scenarios.RepeatedCancel | jaqs/trade/portfoliomanager.py:433-444 | the same cancellation twice leaves the sell want at −200 |
| Plans.InitFromConfig | jaqs/trade/backtest.py:47-62 | succeeds exactly when both dates are present and 'symbol' is present or a data view is attached; start_date is checked first; every failure is a ValueError; the universe comes from 'symbol', else from the view |
| Plans.InitFromConfigAsWritten | jaqs/trade/backtest.py:57-62 | when 'symbol' is present but 'universe' is not, the call raises KeyError('universe'); without 'symbol' it agrees with the corrected check |
| Plans.SymbolConfigRejected | jaqs/trade/backtest.py:57-58 | a configuration with only 'symbol' is refused as written and accepted, with that universe, by the corrected check |
| Plans.RebalanceTarget | jaqs/trade/backtest.py:395-402 | the period day when it is a trade date, else `next_trade_date` of the period day; always a trade date not before the period day, and after the starting date |
| Plans.NextDay | jaqs/trade/backtest.py:392-416 | a trade date strictly after the current one; exactly the next trade date when matching is not finished |
| Backtest.AlphaBacktest.constructor | jaqs/trade/backtest.py:189-198 | dates and rebalance dates start at 0, so the rebalance order holds |
| Backtest.AlphaBacktest.GoNextRebalanceDay | jaqs/trade/backtest.py:392-416 | finished: the new date is the rebalance target, the last rebalance date becomes the old current one (or the new date the first time), and the current one becomes the new date; unfinished: one trade day on, rebalance dates kept; in both cases last_date is the trade date before the new date, and last ≤ current ≤ trade date is kept |
| Plans.AdjustRatios | jaqs/trade/backtest.py:214-217 | at most one ratio per row; every ratio is positive and differs from 1 |
| Plans.AdjustRatiosComplete | jaqs/trade/backtest.py:214-217 | every row whose factor differs from the previous row's contributes its dated ratio |
| Plans.AdjustRatiosSound | jaqs/trade/backtest.py:214-217 | every ratio is the dated ratio of a row whose factor differs from the previous row's |
| Plans.AdjustRatiosInOrder | jaqs/trade/backtest.py:214-217 | for a column in date order, the ratios are in strictly increasing date order |
| Plans.AdjustStep | jaqs/trade/backtest.py:219-225 | a non-positive difference is skipped, otherwise the size becomes pos × ratio; the size never drops, and with a positive ratio its sign is kept |
| Plans.AdjustedSizeBounds | jaqs/trade/backtest.py:218-235 | over a whole ratio series the size never drops, and it is positive (or zero) exactly when it started so |
| Plans.AdjustTail | jaqs/trade/backtest.py:221-235 | at most one trade; when there is one it is a 101010 price-0 BUY of the symbol whose size is the positive difference |
| Plans.AdjustTrades | jaqs/trade/backtest.py:218-235 | at most one trade per ratio, each a 101010 price-0 BUY of the symbol |
| Plans.AdjustTradesNet | jaqs/trade/backtest.py:218-235 | the emitted trades move the symbol's net fills by exactly adjusted − starting size, and no other symbol's |
| Backtest.AlphaBacktest.AdjustOnce | jaqs/trade/backtest.py:219-235 | one ratio: the position becomes `AdjustStep` of the old one, the trades logged are `AdjustTail`, no other symbol moves, holdings and tasks are kept |
| Backtest.AlphaBacktest.AdjustSymbol | jaqs/trade/backtest.py:218-235 | a whole series: the symbol ends at `AdjustedSize`, the log grows by `AdjustTrades`, the statistics settle those trades |
| Backtest.AlphaBacktest.PositionAdjust | jaqs/trade/backtest.py:200-235 | holdings and tasks are kept; only 101010 BUYs are appended and settled; it succeeds exactly when every holding has a factor column, otherwise KeyError names a holding without one; on success each held symbol ends at its adjusted size and the rest are unmoved |
| Backtest.DelistTrades | jaqs/trade/backtest.py:250-266 | one delisting sell per sold symbol, in the order they were sold (the content of each is `DelistTradesAt`) |
| Backtest.DelistTradesAt | jaqs/trade/backtest.py:252-266 | the i-th delisting sell is the whole prior position of the i-th sold symbol, at the close of the last trade date before its delisting, with every identifier 202020 |
| Backtest.AlphaBacktest.SellDelisted | jaqs/trade/backtest.py:252-266 | one delisted holding is sold whole: the symbol is dropped from holdings, its position goes to 0, no other position moves, the trade is settled |
| Backtest.AlphaBacktest.SellDelistedHoldings | jaqs/trade/backtest.py:250-266 | the iteration over a copy of the holdings sells each delisted holding exactly once: holdings lose exactly the delisted symbols, their positions go to 0, the others are unmoved, and the log grows by `DelistTrades` |
| Backtest.AlphaBacktest.DelistAdjust | jaqs/trade/backtest.py:237-266 | with no instrument delisted in the window, nothing changes; otherwise the sold symbols are exactly the delisted holdings, each sold once and without repeats; holdings lose them, their positions go to 0, and the others are unmoved |
| Backtest.NoRepeatsDistinct | jaqs/trade/backtest.py:250-266 | the element-by-element no-repeat check is equivalent to pairwise distinctness |
| Plans.IndexMembers | jaqs/trade/backtest.py:280-284 | exactly the symbols the snapshot flags as members |
| Plans.KeepListed | jaqs/trade/backtest.py:287-291 | exactly the symbols strictly inside their listing window; never longer than the input |
| Plans.KeepListedConcat | jaqs/trade/backtest.py:291 | the filter distributes over concatenation, so relative order is preserved |
| Plans.KeepListedIdempotent | jaqs/trade/backtest.py:291 | filtering a filtered universe changes nothing |
| Plans.RebalanceUniverse | jaqs/trade/backtest.py:268-295 | a symbol is kept exactly when it is listed on the date and is an index member (when the view defines a universe) or in the configured universe (otherwise) |
| Plans.CashPlan | jaqs/trade/backtest.py:319-322 | available = cash + floating value; use = available × position ratio; use + unuse = available; with a ratio in [0, 1] and a non-negative available, 0 ≤ use ≤ available; a ratio of 1 leaves nothing unused |
| Backtest.AlphaBacktest.RebalanceAfterOpen | jaqs/trade/backtest.py:297-332 | the excluded set is suspensions ∪ limit reaches; the strategy cash becomes the goal remainder plus the unused part; the hook's total equals the old cash plus the whole holding's value; a held symbol without a price raises KeyError and changes nothing |
| Backtest.AlphaBacktest.DeliverTrades | jaqs/trade/backtest.py:368-370 | the day's fills are logged in order, all of them exactly when none has a known task of an unsupported kind, otherwise up to the one that raised NotImplementedError; the statistics of the date settle exactly the fills logged; task ids and kinds are kept |
| Backtest.AlphaBacktest.CorporateActionsDay | jaqs/trade/backtest.py:346-351 | `position_adjust`, then `delist_adjust` unless it raised; the trade log grows by exactly the record's adjustment trades (101010) and then its delisting sales (202020, one per sold symbol at its adjusted size), and the holdings and positions are the record's; it succeeds exactly when every holding has a factor column, and then `CorporateActions` holds: each held size is scaled by its factor ratios, the adjustment trades net to exactly that change per symbol, the sold symbols are the holdings delisted in the window, each once, and they leave the holdings with size 0; otherwise KeyError names a holding without a column and nothing is sold; tasks untouched, invariants kept |
| Backtest.AlphaBacktest.RebalanceDay | jaqs/trade/backtest.py:346-365 | the corporate actions as in `CorporateActionsDay`, then the universe filter and the after-open plan; the universe is handed over only when position adjustment did not raise, it is then the filtered universe of the trade date, and `CorporateActions` holds of the record; the trade log, holdings and positions are the record's; on success the strategy cash and goal positions are `CashReplanned`: the after-open plan on the trade date's prices for the new holdings; on error they are unchanged; tasks are untouched; it succeeds exactly when every holding has a factor column and every holding that is not delisted has a price; otherwise KeyError names a holding missing one of them; invariants kept |
| Backtest.AlphaBacktest.RunDay | jaqs/trade/backtest.py:346-370 | a day that completes yields its record: its date, whether it rebalanced, and the filtered universe it handed over on a rebalancing day; it completes exactly when (on a rebalancing day) every holding has a factor column and a price where needed and no fill of the day has a known task of an unsupported kind; a raised error is such a KeyError or NotImplementedError; a completed day's trade log grows by exactly the record's synthetic trades and then the gateway's fills of the day; the record is synthetic, empty with holdings and positions unchanged on a day that does not rebalance, and on a rebalancing day whose holdings are ready `CorporateActions` holds of it; task ids and kinds are kept; invariants kept |
| Backtest.AlphaBacktest.StepDay | jaqs/trade/backtest.py:339-371 | a completed day extends the run log and moves the date on by `NextDay`, strictly forward; it completes under the same condition as `RunDay`; a raised error is a missing factor column or price (KeyError) or an unsupported task kind (NotImplementedError), and leaves the date where it was; a completed day's record has its date and rebalance flag, and the trade log grows by exactly its synthetic trades and then the day's fills; the record is synthetic and empty on a day that does not rebalance |
| Backtest.AlphaBacktest.RunAlpha | jaqs/trade/backtest.py:334-376 | the log of completed days satisfies `RunLog`: each day follows the one before by `NextDay` and the gateway's state, and a rebalancing day carries the filtered universe; the current date is the day after the last logged one; the run ends without error exactly when that date is past the end date, so an error is raised on a day not after it, and it is a KeyError for a holding without a factor column or price, or a NotImplementedError for a fill of that day whose task is of an unsupported kind; task ids and kinds are kept; there is one synthetic record per logged day, empty on a day that did not rebalance, and a run that ends without error has grown the trade log by exactly `RunTrades`: day by day in log order, the day's synthetic trades and then its fills |
| Backtest.RunLogAt | jaqs/trade/backtest.py:334-376 | each record of a run follows its predecessor and is not after the end date |
| Backtest.RunLogDates | jaqs/trade/backtest.py:334-376 | the days of a run are trade dates after the start date and not after the end date, in strictly increasing order |
| Plans.DeliveriesAt | jaqs/trade/backtest.py:607-609 | pair i is delivered at positions 2i (its trade) and 2i + 1 (its status) |
| Plans.Deliveries | jaqs/trade/backtest.py:602-612 | two deliveries per matched pair (their positions are `DeliveriesAt`) |
| Plans.DeliveriesCarryTrades | jaqs/trade/backtest.py:607-608 | the trades delivered, in delivery order, are exactly the trade halves of the match result, in the matcher's order |
| Plans.OrdersAfterUntouched | jaqs/trade/portfoliomanager.py:410-414 | an entrust number that no recorded status of a match result names keeps its order-book entry, or its absence |
| Plans.OrdersAfterLatest | jaqs/trade/portfoliomanager.py:410-414 | after a match result's statuses are recorded in order, each entrust number maps to the last recorded status that names it |
| Backtest.EventBacktest.OnTradeInd | jaqs/trade/backtest.py:608 | the fill reaches the manager: it is logged, the position moves by `ApplyFill`, the statistics of the trade date settle it, and its task is re-checked exactly as in `OnTrade`, raising NotImplementedError exactly for a known task of an unsupported kind; invariants kept |
| Backtest.EventBacktest.OnOrderStatusInd | jaqs/trade/backtest.py:609 | the indication of a known, non-synthetic task enters the order book under its entrust number and its task's orders; a Cancelled/Rejected one releases its remainder from the trade date's statistics and re-checks the task, raising NotImplementedError exactly for an unsupported kind; any other indication changes nothing and does not raise; invariants kept |
| Backtest.EventBacktest.DeliverPair | jaqs/trade/backtest.py:607-609 | the trade reaches the manager and is logged, then the status exactly when the trade did not raise; the pair raises exactly when one of its halves re-checks a task of an unsupported kind; the order book takes the status exactly when it was delivered and applies to a known, non-synthetic task |
| Backtest.EventBacktest.DeliverMatches | jaqs/trade/backtest.py:606-609 | the matched pairs, in order, each trade first: all of them and their trades logged exactly when no pair raises, with the order book `OrdersAfter` their statuses; otherwise a non-empty prefix that ends right after the first indication that raised NotImplementedError; on both outcomes the manager's log grows by exactly the trades of the deliveries made, in order |
| Backtest.EventBacktest.ProcessQuote | jaqs/trade/backtest.py:602-612 | without error: every pair, trade first, then the quote; the manager's log grows by exactly the trades in order, and the order book is `OrdersAfter` the statuses; it succeeds exactly when no pair re-checks a task of an unsupported kind; on error (NotImplementedError) the deliveries stop right after the first indication that raised, every earlier pair quiet, the log grown by exactly the trades delivered, and the order book holding the statuses delivered before it |
| Plans.PositionAdjustSymbolAsWritten | jaqs/trade/backtest.py:219 | as written, a held symbol's adjustment raises exactly when its factor changes in the window |
| Plans.DelistSymbolAsWritten | jaqs/trade/backtest.py:253 | as written, reading a delisted holding's size raises AttributeError |
| Plans.BonusIssueAdjust | jaqs/trade/backtest.py:219 | a 10% bonus issue on 1000 shares raises as written, and grows the holding to 1100 under the corrected rule |
| Plans.BindMarketValue | jaqs/trade/portfoliomanager.py:639 | the manager's `market_value` binds one or two positional arguments and raises TypeError otherwise |
| Plans.AfterOpenCallAsWritten | jaqs/trade/backtest.py:318 | the after-open call's three arguments raise TypeError; two would bind |

## Left out

- `init_positions` queries the trading API. `_hook_strategy` rebinds the strategy's callbacks at run time. Both are replaced by explicit calls. The strategy's own handlers are not modelled: `original_on_order_status` is shown by the `forwarded` flag of `OnOrderStatus`, and `original_on_trade` runs exactly when `OnTrade` returns Ok, as its call is the last step of `_on_trade` (jaqs/trade/portfoliomanager.py:546-549).
- Dead code: the string-literal blocks (`_on_task_rsp`, `add_order`, `on_order_status_OLD`, `PortfolioManager_RAW`), the never-called `_update_order_from_trade_ind` and `set_position`.
- Deep copies: tasks and orders are values, so `copy.deepcopy` and `order.copy` are assignments. Aliasing between a task's orders and the order book cannot arise in the model.
- Data-view and pandas work: `get_ts`, `get_snapshot`, the `univ_price_dic` construction, `get_suspensions`, `get_limit_reaches`, `on_new_day`, `on_after_market_close`, `save_results`, `show_position_info`. The model receives their results as functions of the date.
- Strategy internals: `portfolio_construction`, `re_weight_suspension`, `generate_weights_order` (an input function), `send_bullets`, `on_after_rebalance`, `on_quote`. The gateway's matching is an input.
- The event-engine drivers (`run_event`, `run`, `go_next_trade_date`), `generate_report` and the commented-out `AlphaBacktestInstance_OLD_dataservice`.
- Console output (`print` of warnings) and the dictionary iteration order of pandas results.
- `_update_trade_stat_from_goal_positions` is reached only from the dead `_on_task_rsp`. `_on_order_rsp` only forwards to the strategy's own handler. Neither touches the manager's state.
- `Order.is_finished` is defined in a file that is not part of this model. It is taken to be: status Filled, Cancelled or Rejected, or the fill equals the entrust size.
- Actions are modelled by direction only: `is_positive` buys, anything else sells.
- Backtest.EventBacktest.OnTradeInd, Backtest.AlphaBacktest.DeliverTrades, Backtest.AlphaBacktest.SellDelisted, Backtest.AlphaBacktest.AdjustOnce: the drivers call the strategy's `on_trade_ind`, and these members call the manager's `_on_trade` instead. That assumes the strategy forwards `on_trade_ind` to the hooked `on_trade`.
- Backtest.AlphaBacktest.PositionAdjust: requires every adjust-factor column to be positive, because the ratio of a zero factor is not defined in the model. The ratio series is taken from the factor column directly. The source's `fillna(1.0)` (jaqs/trade/backtest.py:214-217) turns the ratio next to a missing factor into 1.0, so a factor change across a gap is not applied there; the model's columns have no gaps.
- Backtest.AlphaBacktest.DeliverTrades: states task ids and kinds kept, not each task's new status; that is stated one fill at a time by `OnTrade`.
- Backtest.EventBacktest.ProcessQuote, Backtest.EventBacktest.DeliverMatches: state the trades, the order book, when and where the delivery stops and the task kinds kept, not the task statuses and trade statistics after the whole result; those are stated one pair at a time by `DeliverPair`, `OnTradeInd` and `OnOrderStatusInd`.
- Backtest.AlphaBacktest.RunDay: states the trade log and what the corporate actions did, not the strategy cash and goal positions the cash replan leaves; `RebalanceDay` states those (`CashReplanned`). The cash clauses are kept out of the day's contract to keep the proofs of the callers small. On a raised error the trade log is not stated.
- Backtest.AlphaBacktest.StepDay: states the day's trade log and that its record is synthetic, not what the corporate actions and the cash replan did; `RunDay` and `RebalanceDay` state those for the day. On a raised error the trade log is not stated.
- Backtest.AlphaBacktest.RebalanceDay, Backtest.AlphaBacktest.RunDay, Backtest.AlphaBacktest.StepDay, Backtest.AlphaBacktest.RunAlpha: the trade statistics after the synthetic trades and fills are not stated; `RecordFill` states them one trade at a time. Cash and turnover follow the trade log through the manager's invariant.
- Backtest.AlphaBacktest.RunAlpha: states the trade log of the whole run and the shape of each day's synthetic record, not each day's holdings, positions, cash and goals; `RunDay` and `RebalanceDay` state those one day at a time. On a raised error the trade log is not stated.
- Backtest.AlphaBacktest.RunAlpha: the run is modelled under `CalendarWf` (the next trade date is after the current one) and `PeriodAdvances` (the period day moves forward), which make the loop terminate. With a calendar whose next trade date never passes the end date, the source's loop never ends; the model does not cover such a calendar.

## Findings

| source | as written | input that shows it | evidently intended | confidence | as-written member | corrected member |
|---|---|---|---|---|---|---|
| jaqs/trade/backtest.py:219 | `position_adjust` reads `curr_size` of a position, which has `current_size` only | a held symbol whose adjust factor goes 1.0 → 1.1: AttributeError instead of an adjustment | read `current_size`, so 1000 shares become 1100 | high, not executed | Plans.PositionAdjustSymbolAsWritten, Plans.BonusIssueAdjust | Backtest.AlphaBacktest.PositionAdjust |
| jaqs/trade/backtest.py:253 | `delist_adjust` reads `curr_size` for every delisted holding | any holding delisted between the two rebalance dates: AttributeError | sell the whole `current_size` | high, not executed | Plans.DelistSymbolAsWritten | Backtest.AlphaBacktest.DelistAdjust |
| jaqs/trade/backtest.py:318 | `market_value(trade_date, prices, all_list)` passes three arguments to a method taking `ref_prices, suspensions=None` | every rebalancing day: TypeError | `market_value(prices, all_list)` | high, not executed | Plans.AfterOpenCallAsWritten | Backtest.AlphaBacktest.RebalanceAfterOpen |
| jaqs/trade/backtest.py:57-58 | tests `'symbol' in props` but reads `props['universe']` | props with start_date, end_date and symbol only: KeyError('universe') | take the universe from `props['symbol']` | medium, not executed | Plans.InitFromConfigAsWritten, Plans.SymbolConfigRejected | Plans.InitFromConfig |

=== FILE: backtest.dfy ===
/** The backtest drivers: the periodic-rebalance driver that walks the calendar from
    rebalance date to rebalance date, adjusting holdings for corporate actions and
    replanning cash, and the tick-driven driver that hands fills and quotes to the
    strategy. The data view, the gateway and the strategy are inputs. */
module Backtest {
  import opened Basic
  import opened Ledger
  import opened Plans
  import opened Portfolio

  /** What the driver reads from the data view, as functions of what it asks for. */
  datatype DataView = DataView(
    adjustFactor: (int, int) -> map<string, seq<(int, real)>>,   // adjust-factor columns between two dates
    instruments: map<string, Instrument>,                       // listing and delisting dates
    close: (int, string) -> real,                               // close of a symbol on a date
    universeDefined: bool,                                      // whether the view defines an index universe
    indexMembers: int -> seq<(string, bool)>,                   // index-membership snapshot of a date
    prices: int -> map<string, real>,                           // close prices of the universe on a date
    suspensions: int -> set<string>,
    limitReaches: int -> set<string>)

  /** Adjust factors are positive in every column the view returns. */
  predicate FactorTableWf(table: map<string, seq<(int, real)>>) {
    forall s :: s in table ==> FactorsPositive(table[s])
  }

  ghost predicate DataViewWf(dv: DataView) {
    forall start, end :: FactorTableWf(dv.adjustFactor(start, end))
  }

  lemma FactorsBetween(dv: DataView, start: int, end: int)
    requires DataViewWf(dv)
    ensures FactorTableWf(dv.adjustFactor(start, end))
  {
  }

  /** The simulated gateway: whether its matching has finished after a date, and the
      fills it returns on a date. */
  datatype Gateway = Gateway(matchFinished: int -> bool, matches: int -> seq<Trade>)

  /** What the driver takes from the strategy: its period stepping, its position ratio and
      its goal generation (goal positions and cash remainder for the cash to use). */
  datatype StrategyPlan = StrategyPlan(
    periodDay: int -> int,
    positionRatio: real,
    generate: (real, map<string, real>, set<string>) -> (seq<GoalPosition>, real))

  /** One completed day of the periodic driver: its date, whether it rebalanced, and the
      universe it handed to portfolio construction when it did. */
  datatype DayRecord = DayRecord(date: int, rebalanced: bool, universe: seq<string>)

  /** What the corporate-action steps of a rebalance day did, as values: the adjustment
      BUYs logged, the delisted holdings sold (in the order sold) and their SELLs, the
      positions after the adjustment, and the holdings and positions after the delisting
      (the state the cash replan and the day's fills start from). */
  datatype Rebalance = Rebalance(adjusted: seq<Trade>, sold: seq<string>, delisting: seq<Trade>,
                                 adjustedPositions: map<string, Position>,
                                 holdings: set<string>, positions: map<string, Position>)

  /** The trades of a rebalance record are synthetic: 101010 BUYs, then one 202020 SELL
      per sold symbol, of its whole adjusted position. */
  predicate Synthetic(rb: Rebalance, dv: DataView, cal: Calendar) {
    && (forall i :: 0 <= i < |rb.adjusted| ==> IsAdjustTrade(rb.adjusted[i]))
    && (forall s :: s in rb.sold ==> s in dv.instruments)
    && rb.delisting == DelistTrades(rb.sold, rb.adjustedPositions, dv.instruments, dv.close, cal)
  }

  /** `rb` is what `position_adjust` and then `delist_adjust` do to holdings `h0` at
      positions `p0` for the rebalance period [start, end]: every holding has a factor
      column and grows to its adjusted size, the BUYs adding exactly the growth; then the
      holdings delisted in the period are each sold whole, once, and dropped. */
  ghost predicate CorporateActions(dv: DataView, cal: Calendar, start: int, end: int,
                                   h0: set<string>, p0: map<string, Position>, rb: Rebalance)
  {
    var dfAdj := dv.adjustFactor(start, end);
    var delisted := DelistedIn(dv.instruments, start, end);
    && Synthetic(rb, dv, cal)
    && FactorTableWf(dfAdj) && h0 <= dfAdj.Keys
    && (forall s :: PosOf(rb.adjustedPositions, s) ==
          if s in h0 then AdjustedSize(PosOf(p0, s), AdjustRatios(dfAdj[s])) else PosOf(p0, s))
    && (forall s :: NetFilled(rb.adjusted, s) == PosOf(rb.adjustedPositions, s) - PosOf(p0, s))
    && (forall s :: s in rb.sold <==> s in h0 && s in delisted)
    && (forall i, j :: 0 <= i < j < |rb.sold| ==> rb.sold[i] != rb.sold[j])
    && rb.holdings == h0 - delisted
    && (forall s :: PosOf(rb.positions, s) == if s in rb.sold then 0.0 else PosOf(rb.adjustedPositions, s))
  }

  /** The cash replan after the open of `date`, for holdings `h` at positions `p`: the
      goal positions and the strategy cash are what the strategy's goal generation and
      `CashPlan` give for the floating value of the holdings not excluded. */
  ghost predicate CashReplanned(dv: DataView, st: StrategyPlan, date: int, h: set<string>, p: map<string, Position>,
                                cash0: real, cash1: real, goals1: seq<GoalPosition>)
  {
    var prices := dv.prices(date);
    var excluded := dv.suspensions(date) + dv.limitReaches(date);
    && h <= p.Keys && h <= prices.Keys
    && var plan := CashPlan(cash0, SumValue(h - excluded, p, prices), st.positionRatio);
       var goals := st.generate(plan.use, prices, excluded);
       goals1 == goals.0 && cash1 == goals.1 + plan.unuse
  }

  /** The facts `PositionAdjust` and `DelistAdjust` state one after the other, read as a
      rebalance record. */
  lemma CorporateActionsFrom(dv: DataView, cal: Calendar, start: int, end: int,
                             h0: set<string>, p0: map<string, Position>, t0: seq<Trade>, rb: Rebalance)
    requires forall s :: PosOf(p0, s) == NetFilled(t0, s)
    requires forall s :: PosOf(rb.adjustedPositions, s) == NetFilled(t0 + rb.adjusted, s)
    requires FactorTableWf(dv.adjustFactor(start, end)) && h0 <= dv.adjustFactor(start, end).Keys
    requires forall i :: 0 <= i < |rb.adjusted| ==> IsAdjustTrade(rb.adjusted[i])
    requires forall s :: PosOf(rb.adjustedPositions, s) ==
               if s in h0 then AdjustedSize(PosOf(p0, s), AdjustRatios(dv.adjustFactor(start, end)[s])) else PosOf(p0, s)
    requires rb.holdings == h0 - DelistedIn(dv.instruments, start, end)
    requires forall s :: s in rb.sold <==> s in h0 && s in DelistedIn(dv.instruments, start, end)
    requires forall i, j :: 0 <= i < j < |rb.sold| ==> rb.sold[i] != rb.sold[j]
    requires forall s :: PosOf(rb.positions, s) ==
               if s in h0 && s in DelistedIn(dv.instruments, start, end) then 0.0 else PosOf(rb.adjustedPositions, s)
    requires rb.delisting == DelistTrades(rb.sold, rb.adjustedPositions, dv.instruments, dv.close, cal)
    ensures CorporateActions(dv, cal, start, end, h0, p0, rb)
  {
    forall s
      ensures NetFilled(rb.adjusted, s) == PosOf(rb.adjustedPositions, s) - PosOf(p0, s)
    {
      NetFilledConcat(t0, rb.adjusted, s);
    }
  }

  /** The day before record `i`: the start date for the first. */
  function PrevDate(startDate: int, log: seq<DayRecord>, i: int): int
    requires 0 <= i <= |log|
  {
    if i == 0 then startDate else log[i - 1].date
  }

  /** The delisting sells, in the order the symbols were sold, each sized at the position
      the symbol had before. */
  function DelistTrades(sold: seq<string>, positions: map<string, Position>, instruments: map<string, Instrument>,
                        close: (int, string) -> real, cal: Calendar): (ts: seq<Trade>)
    requires forall s :: s in sold ==> s in instruments
    ensures |ts| == |sold|
    decreases |sold|
  {
    if sold == [] then []
    else
      var n := |sold|;
      var s := sold[n - 1];
      var lastTradeDate := cal.lastTradeDate(instruments[s].delistDate);
      DelistTrades(sold[..n - 1], positions, instruments, close, cal)
        + [DelistTrade(s, close(lastTradeDate, s), PosOf(positions, s), lastTradeDate)]
  }

  /** The i-th delisting sell sells the i-th sold symbol's whole prior position at the close
      of the last trade date before its delisting. */
  lemma {:induction false} DelistTradesAt(sold: seq<string>, positions: map<string, Position>, instruments: map<string, Instrument>,
                                          close: (int, string) -> real, cal: Calendar, i: int)
    requires forall s :: s in sold ==> s in instruments
    requires 0 <= i < |sold|
    ensures var lastTradeDate := cal.lastTradeDate(instruments[sold[i]].delistDate);
      DelistTrades(sold, positions, instruments, close, cal)[i]
        == DelistTrade(sold[i], close(lastTradeDate, sold[i]), PosOf(positions, sold[i]), lastTradeDate)
    decreases |sold|
  {
    var n := |sold|;
    if i < n - 1 {
      assert sold[..n - 1][i] == sold[i];
      DelistTradesAt(sold[..n - 1], positions, instruments, close, cal, i);
    }
  }

  /** The periodic-rebalance driver. */
  class AlphaBacktest {
    const pm: PortfolioManager
    var startDate: int
    var endDate: int
    var universe: seq<string>
    var tradeDate: int
    var lastDate: int
    var lastRebalanceDate: int
    var currentRebalanceDate: int
    var strategyCash: real
    var goalPositions: seq<GoalPosition>

    /** Once a rebalance has happened, the last rebalance date is not after the current
        one, which is not after the trade date. */
    ghost predicate RebalanceOrdered()
      reads this`lastRebalanceDate, this`currentRebalanceDate, this`tradeDate
    {
      currentRebalanceDate > 0 ==> lastRebalanceDate <= currentRebalanceDate <= tradeDate
    }

    /** The holdings a rebalance day can process without a KeyError: each has an adjustment
        factor column for the rebalance period, and each one not delisted in it has a price
        on the trade date. */
    ghost predicate RebalanceReady(dv: DataView)
      reads this, pm
    {
      && pm.holdings <= dv.adjustFactor(lastRebalanceDate, currentRebalanceDate).Keys
      && pm.holdings - DelistedIn(dv.instruments, lastRebalanceDate, currentRebalanceDate) <= dv.prices(tradeDate).Keys
    }

    /** What an error raised on the day `tradeDate` points to in the state it leaves: a held
        symbol without an adjustment factor column or without a price (KeyError), or a
        fill of the day for a task that carries no orders (NotImplementedError). */
    ghost predicate RaisedFor(dv: DataView, gw: Gateway, e: Error)
      reads this, pm
    {
      || (&& e.KeyError? && e.key in pm.holdings
          && (e.key !in dv.adjustFactor(lastRebalanceDate, currentRebalanceDate) || e.key !in dv.prices(tradeDate)))
      || (e.NotImplemented? && !AllQuiet(pm.tasks, gw.matches(tradeDate)))
    }

    constructor (pm: PortfolioManager, startDate: int, endDate: int, universe: seq<string>, cash: real)
      ensures this.pm == pm && this.startDate == startDate && this.endDate == endDate && this.universe == universe
      ensures tradeDate == 0 && lastDate == 0 && lastRebalanceDate == 0 && currentRebalanceDate == 0
      ensures strategyCash == cash && goalPositions == []
      ensures RebalanceOrdered()
    {
      this.pm := pm;
      this.startDate, this.endDate, this.universe := startDate, endDate, universe;
      tradeDate, lastDate, lastRebalanceDate, currentRebalanceDate := 0, 0, 0, 0;
      strategyCash, goalPositions := cash, [];
    }

    /** `go_next_rebalance_day`: with matching finished, jump to the next rebalance date and
        shift the rebalance dates; otherwise move one trade day and keep them. */
    method GoNextRebalanceDay(cal: Calendar, periodDay: int -> int, matchFinished: bool)
      requires CalendarWf(cal) && PeriodAdvances(periodDay)
      requires RebalanceOrdered()
      modifies this`tradeDate, this`lastDate, this`lastRebalanceDate, this`currentRebalanceDate
      ensures RebalanceOrdered()
      ensures tradeDate == NextDay(cal, periodDay, matchFinished, old(tradeDate))
      ensures old(tradeDate) < tradeDate && cal.isTradeDate(tradeDate)
      ensures lastDate == cal.lastTradeDate(tradeDate) && lastDate < tradeDate
      ensures matchFinished ==>
        && currentRebalanceDate == tradeDate
        && lastRebalanceDate == (if old(currentRebalanceDate) > 0 then old(currentRebalanceDate) else tradeDate)
      ensures !matchFinished ==>
        currentRebalanceDate == old(currentRebalanceDate) && lastRebalanceDate == old(lastRebalanceDate)
    {
      var currentDate := tradeDate;
      if matchFinished {
        var nextPeriodDay := periodDay(currentDate);
        if cal.isTradeDate(nextPeriodDay) {
          currentDate := nextPeriodDay;
        } else {
          currentDate := cal.nextTradeDate(nextPeriodDay);
        }
        if currentRebalanceDate > 0 {
          lastRebalanceDate := currentRebalanceDate;
        } else {
          lastRebalanceDate := currentDate;
        }
        currentRebalanceDate := currentDate;
      } else {
        currentDate := cal.nextTradeDate(currentDate);
      }
      tradeDate := currentDate;
      lastDate := cal.lastTradeDate(currentDate);
    }

    /** One ratio of `position_adjust`: read the symbol's size, and when the ratio grows it,
        hand the manager a price-0 BUY of the difference. */
    method AdjustOnce(symbol: string, ratio: (int, real), date: int)
      requires pm.Valid() && symbol in pm.holdings && ratio.1 > 0.0
      modifies pm`trades, pm`positions, pm`holdings, pm`cumNetTurnover, pm`cash, pm`tradeStats, pm`tasks
      ensures pm.Valid()
      ensures pm.holdings == old(pm.holdings) && pm.tasks == old(pm.tasks)
      ensures pm.trades == old(pm.trades) + AdjustTail(symbol, old(PosOf(pm.positions, symbol)), ratio)
      ensures PosOf(pm.positions, symbol) == AdjustStep(old(PosOf(pm.positions, symbol)), ratio.1)
      ensures forall s :: s != symbol ==> PosOf(pm.positions, s) == old(PosOf(pm.positions, s))
      ensures pm.tradeStats == SettleAll(old(pm.tradeStats), AdjustTail(symbol, old(PosOf(pm.positions, symbol)), ratio), date)
    {
      var posOld := pm.GetPos(symbol);
      var posDiff := AdjustDiff(posOld, ratio.1);
      AdjustTailShape(symbol, posOld, ratio);
      if posDiff > 0.0 {
        var trade := AdjustTrade(symbol, posDiff, ratio.0);
        assert [trade][..0] == [];
        var _ := pm.OnTrade(trade, date);
      }
    }

    /** The inner loop of `position_adjust` for one held symbol: replay its ratio series,
        emitting a price-0 BUY for each positive difference. */
    method AdjustSymbol(symbol: string, ratios: seq<(int, real)>, date: int)
      requires pm.Valid() && symbol in pm.holdings
      requires forall k :: 0 <= k < |ratios| ==> ratios[k].1 > 0.0
      modifies pm`trades, pm`positions, pm`holdings, pm`cumNetTurnover, pm`cash, pm`tradeStats, pm`tasks
      ensures pm.Valid()
      ensures pm.trades == old(pm.trades) + AdjustTrades(symbol, old(PosOf(pm.positions, symbol)), ratios)
      ensures pm.holdings == old(pm.holdings) && pm.tasks == old(pm.tasks)
      ensures forall s :: PosOf(pm.positions, s) ==
                          if s == symbol then AdjustedSize(old(PosOf(pm.positions, symbol)), ratios) else old(PosOf(pm.positions, s))
      ensures pm.tradeStats == SettleAll(old(pm.tradeStats), AdjustTrades(symbol, old(PosOf(pm.positions, symbol)), ratios), date)
    {
      ghost var p0 := PosOf(pm.positions, symbol);
      ghost var pos0, t0, s0 := pm.positions, pm.trades, pm.tradeStats;
      var j := 0;
      ghost var emitted: seq<Trade> := [];
      assert ratios[..0] == [];
      while j < |ratios|
        invariant 0 <= j <= |ratios|
        invariant pm.Valid()
        invariant pm.holdings == old(pm.holdings) && pm.tasks == old(pm.tasks)
        invariant emitted == AdjustTrades(symbol, p0, ratios[..j])
        invariant pm.trades == t0 + emitted
        invariant PosOf(pm.positions, symbol) == AdjustedSize(p0, ratios[..j])
        invariant forall s :: s != symbol ==> PosOf(pm.positions, s) == PosOf(pos0, s)
        invariant pm.tradeStats == SettleAll(s0, emitted, date)
      {
        ghost var before := AdjustedSize(p0, ratios[..j]);
        ghost var tail := AdjustTail(symbol, before, ratios[j]);
        AdjustPrefixStep(symbol, p0, ratios, j);
        SettleAllConcat(s0, emitted, tail, date);
        AdjustOnce(symbol, ratios[j], date);
        ConcatAssoc(t0, emitted, tail);
        emitted := emitted + tail;
        j := j + 1;
      }
      assert ratios[..j] == ratios;
    }

    /** `position_adjust`: every held symbol's adjust-factor changes between the two
        rebalance dates become price-0 BUY trades (101010); a held symbol without a column
        raises KeyError. */
    method PositionAdjust(dfAdj: map<string, seq<(int, real)>>, date: int) returns (r: Outcome)
      requires pm.Valid()
      requires FactorTableWf(dfAdj)
      modifies pm`trades, pm`positions, pm`holdings, pm`cumNetTurnover, pm`cash, pm`tradeStats, pm`tasks
      ensures pm.Valid()
      ensures pm.holdings == old(pm.holdings) && pm.tasks == old(pm.tasks)
      ensures old(pm.trades) <= pm.trades
      ensures forall i :: |old(pm.trades)| <= i < |pm.trades| ==> IsAdjustTrade(pm.trades[i])
      ensures pm.tradeStats == SettleAll(old(pm.tradeStats), pm.trades[|old(pm.trades)|..], date)
      ensures r.Ok? <==> pm.holdings <= dfAdj.Keys
      ensures r.Raised? ==> r.error.KeyError? && r.error.key in pm.holdings && r.error.key !in dfAdj
      ensures r.Ok? ==> forall s :: PosOf(pm.positions, s) ==
                                    if s in pm.holdings then AdjustedSize(old(PosOf(pm.positions, s)), AdjustRatios(dfAdj[s]))
                                    else old(PosOf(pm.positions, s))
    {
      ghost var pos0, t0, s0 := pm.positions, pm.trades, pm.tradeStats;
      var todo := pm.holdings;
      ghost var done: set<string> := {};
      ghost var emitted: seq<Trade> := [];
      while todo != {}
        invariant pm.Valid()
        invariant pm.holdings == old(pm.holdings) && pm.tasks == old(pm.tasks)
        invariant todo + done == pm.holdings && todo !! done
        invariant done <= dfAdj.Keys
        invariant pm.trades == t0 + emitted
        invariant forall i :: 0 <= i < |emitted| ==> IsAdjustTrade(emitted[i])
        invariant pm.tradeStats == SettleAll(s0, emitted, date)
        invariant forall s :: PosOf(pm.positions, s) ==
                              if s in done then AdjustedSize(PosOf(pos0, s), AdjustRatios(dfAdj[s])) else PosOf(pos0, s)
        decreases todo
      {
        var symbol :| symbol in todo;
        if symbol !in dfAdj {
          SuffixAfter(t0, emitted);
          return Raised(KeyError(symbol));
        }
        var ratios := AdjustRatios(dfAdj[symbol]);
        ghost var added := AdjustTrades(symbol, PosOf(pos0, symbol), ratios);
        assert PosOf(pm.positions, symbol) == PosOf(pos0, symbol);
        SettleAllConcat(s0, emitted, added, date);
        AdjustSymbol(symbol, ratios, date);
        ConcatAssoc(t0, emitted, added);
        emitted := emitted + added;
        todo, done := todo - {symbol}, done + {symbol};
      }
      SuffixAfter(t0, emitted);
      r := Ok;
    }

    /** One delisted holding of `delist_adjust`: sell the whole position at the close of
        the last trade date before the delisting. */
    method SellDelisted(symbol: string, instruments: map<string, Instrument>, close: (int, string) -> real, cal: Calendar, date: int)
      returns (trade: Trade)
      requires pm.Valid() && symbol in instruments
      modifies pm`trades, pm`positions, pm`holdings, pm`cumNetTurnover, pm`cash, pm`tradeStats, pm`tasks
      ensures pm.Valid() && pm.tasks == old(pm.tasks)
      ensures var lastTradeDate := cal.lastTradeDate(instruments[symbol].delistDate);
        trade == DelistTrade(symbol, close(lastTradeDate, symbol), old(PosOf(pm.positions, symbol)), lastTradeDate)
      ensures pm.trades == old(pm.trades) + [trade]
      ensures pm.holdings == old(pm.holdings) - {symbol}
      ensures forall s :: PosOf(pm.positions, s) == if s == symbol then 0.0 else old(PosOf(pm.positions, s))
      ensures pm.tradeStats == Settle(old(pm.tradeStats), trade, date)
    {
      var pos := pm.GetPos(symbol);
      var lastTradeDate := cal.lastTradeDate(instruments[symbol].delistDate);
      var lastClosePrice := close(lastTradeDate, symbol);
      trade := DelistTrade(symbol, lastClosePrice, pos, lastTradeDate);
      var _ := pm.OnTrade(trade, date);
    }

    /** `delist_adjust`: each held symbol delisted between the two rebalance dates is sold
        whole (202020) at the close of the last trade date before its delisting; nothing
        happens when no instrument was delisted in that window. */
    method DelistAdjust(instruments: map<string, Instrument>, close: (int, string) -> real, cal: Calendar, date: int)
      returns (ghost sold: seq<string>)
      requires pm.Valid()
      modifies pm`trades, pm`positions, pm`holdings, pm`cumNetTurnover, pm`cash, pm`tradeStats, pm`tasks
      ensures pm.Valid()
      ensures var delisted := DelistedIn(instruments, lastRebalanceDate, currentRebalanceDate);
        && pm.holdings == old(pm.holdings) - delisted
        && (forall s :: s in sold <==> s in old(pm.holdings) && s in delisted)
        && (forall i, j :: 0 <= i < j < |sold| ==> sold[i] != sold[j])
        && (forall s :: PosOf(pm.positions, s) ==
              if s in old(pm.holdings) && s in delisted then 0.0 else old(PosOf(pm.positions, s)))
      ensures pm.trades == old(pm.trades) + DelistTrades(sold, old(pm.positions), instruments, close, cal)
      ensures pm.tradeStats == SettleAll(old(pm.tradeStats), pm.trades[|old(pm.trades)|..], date)
      ensures pm.tasks == old(pm.tasks)
    {
      sold := [];
      var delisted := DelistedIn(instruments, lastRebalanceDate, currentRebalanceDate);
      if delisted == {} {
        SuffixAfter(pm.trades, []);
        return;
      }
      sold := SellDelistedHoldings(delisted, instruments, close, cal, date);
      NoRepeatsDistinct(sold);
    }

    /** The iteration of `delist_adjust` over a copy of the holdings, which the sells shrink. */
    method SellDelistedHoldings(delisted: set<string>, instruments: map<string, Instrument>, close: (int, string) -> real,
                                cal: Calendar, date: int)
      returns (ghost sold: seq<string>)
      requires pm.Valid()
      requires forall s :: s in delisted ==> s in instruments
      modifies pm`trades, pm`positions, pm`holdings, pm`cumNetTurnover, pm`cash, pm`tradeStats, pm`tasks
      ensures pm.Valid()
      ensures pm.holdings == old(pm.holdings) - delisted
      ensures forall s :: s in sold <==> s in old(pm.holdings) && s in delisted
      ensures NoRepeats(sold)
      ensures forall s :: PosOf(pm.positions, s) ==
                if s in old(pm.holdings) && s in delisted then 0.0 else old(PosOf(pm.positions, s))
      ensures pm.trades == old(pm.trades) + DelistTrades(sold, old(pm.positions), instruments, close, cal)
      ensures pm.tradeStats == SettleAll(old(pm.tradeStats), pm.trades[|old(pm.trades)|..], date)
      ensures pm.tasks == old(pm.tasks)
    {
      ghost var pos0, t0, s0 := pm.positions, pm.trades, pm.tradeStats;
      sold := [];
      var todo := pm.holdings;
      ghost var done: set<string> := {};
      ghost var emitted: seq<Trade> := [];
      while todo != {}
        invariant pm.Valid()
        invariant pm.tasks == old(pm.tasks)
        invariant todo + done == old(pm.holdings) && todo !! done
        invariant forall s :: s in sold <==> s in done && s in delisted
        invariant NoRepeats(sold)
        invariant forall s :: PosOf(pm.positions, s) == if s in done && s in delisted then 0.0 else PosOf(pos0, s)
        invariant emitted == DelistTrades(sold, pos0, instruments, close, cal)
        invariant pm.trades == t0 + emitted
        invariant pm.tradeStats == SettleAll(s0, emitted, date)
        decreases todo
      {
        var symbol :| symbol in todo;
        if symbol in delisted {
          assert PosOf(pm.positions, symbol) == PosOf(pos0, symbol);
          var trade := SellDelisted(symbol, instruments, close, cal, date);
          assert (sold + [symbol])[..|sold|] == sold;
          assert (emitted + [trade])[..|emitted|] == emitted;
          ConcatAssoc(t0, emitted, [trade]);
          sold := sold + [symbol];
          emitted := emitted + [trade];
        }
        todo, done := todo - {symbol}, done + {symbol};
      }
      SuffixAfter(t0, emitted);
      KeysAfterDelisting(pos0, pm.positions, delisted);
    }

    /** `re_balance_plan_after_open`: exclude suspended and limit-locked symbols, value the
        rest of the holdings, split the available cash by the position ratio, and keep the
        strategy's cash remainder plus the unused part. Returns the total value handed to
        the strategy's after-rebalance hook. */
    method RebalanceAfterOpen(prices: map<string, real>, suspensions: set<string>, limitReaches: set<string>,
                              positionRatio: real, generate: (real, map<string, real>, set<string>) -> (seq<GoalPosition>, real))
      returns (r: Outcome, total: real)
      requires pm.Valid()
      modifies this`strategyCash, this`goalPositions
      ensures var excluded := suspensions + limitReaches;
        if pm.holdings <= prices.Keys then
          var plan := CashPlan(old(strategyCash), SumValue(pm.holdings - excluded, pm.positions, prices), positionRatio);
          var goals := generate(plan.use, prices, excluded);
          && r == Ok
          && goalPositions == goals.0
          && strategyCash == goals.1 + plan.unuse
          && total == plan.available + SumValue(pm.holdings * excluded, pm.positions, prices)
          && total == old(strategyCash) + SumValue(pm.holdings, pm.positions, prices)
        else
          && r.Raised? && r.error.KeyError? && r.error.key in pm.holdings && r.error.key !in prices
          && strategyCash == old(strategyCash) && goalPositions == old(goalPositions)
    {
      var excluded := suspensions + limitReaches;
      var mv := pm.MarketValue(prices, excluded);
      match mv {
        case Failure(e) =>
          r, total := Raised(e), 0.0;
        case Success(values) =>
          var plan := CashPlan(strategyCash, values.0, positionRatio);
          var goals := generate(plan.use, prices, excluded);
          goalPositions := goals.0;
          strategyCash := goals.1 + plan.unuse;
          r, total := Ok, plan.available + values.1;
      }
    }

    /** The fills the gateway returns for the day, handed on one by one; the first raised
        error ends the delivery. */
    method DeliverTrades(trades: seq<Trade>, date: int) returns (r: Outcome)
      requires pm.Valid()
      modifies pm`trades, pm`positions, pm`holdings, pm`cumNetTurnover, pm`cash, pm`tradeStats, pm`tasks
      ensures pm.Valid()
      ensures old(pm.trades) <= pm.trades <= old(pm.trades) + trades
      ensures r.Ok? ==> pm.trades == old(pm.trades) + trades
      ensures pm.tradeStats == SettleAll(old(pm.tradeStats), pm.trades[|old(pm.trades)|..], date)
      ensures KindsKept(old(pm.tasks), pm.tasks)
      ensures r.Ok? <==> AllQuiet(old(pm.tasks), trades)
      ensures r.Raised? ==> r.error.NotImplemented? && !AllQuiet(pm.tasks, trades)
    {
      r := Ok;
      var i := 0;
      while i < |trades|
        invariant 0 <= i <= |trades|
        invariant pm.Valid()
        invariant pm.trades == old(pm.trades) + trades[..i]
        invariant pm.tradeStats == SettleAll(old(pm.tradeStats), trades[..i], date)
        invariant KindsKept(old(pm.tasks), pm.tasks)
        invariant AllQuiet(old(pm.tasks), trades[..i]) && r.Ok?
      {
        ghost var tradesPre, tasksPre, statsPre := pm.trades, pm.tasks, pm.tradeStats;
        r := pm.OnTrade(trades[i], date);
        TradeStep(trades, i, date, r.Ok?, old(pm.trades), old(pm.tasks), old(pm.tradeStats),
                  tradesPre, tasksPre, statsPre, pm.trades, pm.tasks, pm.tradeStats);
        if r.Raised? {
          return;
        }
        i := i + 1;
      }
      assert trades[..i] == trades;
      SuffixAfter(old(pm.trades), trades);
    }

    /** The corporate-action steps of a rebalance day: `position_adjust`, then, unless it
        raised, `delist_adjust`; `rb` records what they did. */
    method CorporateActionsDay(cal: Calendar, dv: DataView) returns (r: Outcome, ghost rb: Rebalance)
      requires pm.Valid() && DataViewWf(dv)
      modifies pm`trades, pm`positions, pm`holdings, pm`cumNetTurnover, pm`cash, pm`tradeStats, pm`tasks
      ensures pm.Valid() && pm.tasks == old(pm.tasks)
      ensures r.Ok? <==> old(pm.holdings) <= dv.adjustFactor(lastRebalanceDate, currentRebalanceDate).Keys
      ensures r.Raised? ==>
        && r.error.KeyError? && r.error.key in pm.holdings
        && r.error.key !in dv.adjustFactor(lastRebalanceDate, currentRebalanceDate)
      ensures pm.trades == old(pm.trades) + rb.adjusted + rb.delisting
      ensures pm.holdings == rb.holdings && pm.positions == rb.positions
      ensures Synthetic(rb, dv, cal)
      ensures r.Ok? ==> CorporateActions(dv, cal, lastRebalanceDate, currentRebalanceDate, old(pm.holdings), old(pm.positions), rb)
      ensures r.Raised? ==> rb.sold == [] && rb.holdings == old(pm.holdings)
    {
      var dfAdj := dv.adjustFactor(lastRebalanceDate, currentRebalanceDate);
      FactorsBetween(dv, lastRebalanceDate, currentRebalanceDate);
      ghost var t0, p0 := pm.trades, pm.positions;
      r := PositionAdjust(dfAdj, tradeDate);
      ghost var adjusted := pm.trades[|t0|..];
      assert pm.trades == t0 + adjusted;
      assert forall i :: 0 <= i < |adjusted| ==> adjusted[i] == pm.trades[|t0| + i];
      rb := Rebalance(adjusted, [], [], pm.positions, pm.holdings, pm.positions);
      if r.Raised? {
        return;
      }
      ghost var mid := pm.positions;
      ghost var sold := DelistAdjust(dv.instruments, dv.close, cal, tradeDate);
      rb := Rebalance(adjusted, sold, DelistTrades(sold, mid, dv.instruments, dv.close, cal), mid, pm.holdings, pm.positions);
      CorporateActionsFrom(dv, cal, lastRebalanceDate, currentRebalanceDate, old(pm.holdings), p0, t0, rb);
    }

    /** The rebalance steps of a day after finished matching: adjust for corporate actions,
        filter the universe handed to portfolio construction, then replan the cash; a
        raised error ends the day. Only a raised position adjustment stops the day before
        the universe is handed over. `rb` records what the corporate actions did. */
    method RebalanceDay(cal: Calendar, dv: DataView, ghost gw: Gateway, st: StrategyPlan)
      returns (r: Outcome, handed: Option<seq<string>>, ghost rb: Rebalance)
      requires pm.Valid() && DataViewWf(dv)
      modifies this`strategyCash, this`goalPositions
      modifies pm`trades, pm`positions, pm`holdings, pm`cumNetTurnover, pm`cash, pm`tradeStats, pm`tasks
      ensures pm.Valid()
      ensures handed.Some? ==>
                handed.value == RebalanceUniverse(universe, dv.universeDefined, dv.indexMembers(tradeDate), dv.instruments, tradeDate)
      ensures handed.None? ==> r.Raised?
      ensures pm.tasks == old(pm.tasks)
      ensures r.Ok? <==> old(RebalanceReady(dv))
      ensures r.Raised? ==> r.error.KeyError? && RaisedFor(dv, gw, r.error)
      ensures pm.trades == old(pm.trades) + rb.adjusted + rb.delisting
      ensures pm.holdings == rb.holdings && pm.positions == rb.positions
      ensures Synthetic(rb, dv, cal)
      ensures handed.Some? ==>
                CorporateActions(dv, cal, lastRebalanceDate, currentRebalanceDate, old(pm.holdings), old(pm.positions), rb)
      ensures handed.None? ==> rb.sold == [] && rb.holdings == old(pm.holdings)
      ensures r.Ok? ==> CashReplanned(dv, st, tradeDate, pm.holdings, pm.positions, old(strategyCash), strategyCash, goalPositions)
      ensures r.Raised? ==> strategyCash == old(strategyCash) && goalPositions == old(goalPositions)
    {
      handed := None;
      r, rb := CorporateActionsDay(cal, dv);
      if r.Raised? {
        return;
      }
      handed := Some(RebalanceUniverse(universe, dv.universeDefined, dv.indexMembers(tradeDate), dv.instruments, tradeDate));
      var cashTotal;
      r, cashTotal := RebalanceAfterOpen(dv.prices(tradeDate), dv.suspensions(tradeDate), dv.limitReaches(tradeDate),
                                         st.positionRatio, st.generate);
    }

    /** One day of `run_alpha` once the date is set: when matching had finished, the
        universe filter and the rebalance steps; then the day's fills. */
    method RunDay(cal: Calendar, dv: DataView, gw: Gateway, st: StrategyPlan, finished: bool, ghost prev: int)
      returns (r: Outcome, day: DayRecord, ghost rb: Rebalance)
      requires pm.Valid() && DataViewWf(dv)
      requires finished == gw.matchFinished(prev) && tradeDate == NextDay(cal, st.periodDay, finished, prev)
      modifies this`strategyCash, this`goalPositions
      modifies pm`trades, pm`positions, pm`holdings, pm`cumNetTurnover, pm`cash, pm`tradeStats, pm`tasks
      ensures pm.Valid()
      ensures day.date == tradeDate && day.rebalanced == finished
      ensures r.Ok? ==> DayFollows(cal, dv, gw, st, universe, prev, day)
      ensures KindsKept(old(pm.tasks), pm.tasks)
      ensures r.Ok? <==> (finished ==> old(RebalanceReady(dv))) && AllQuiet(old(pm.tasks), gw.matches(tradeDate))
      ensures r.Raised? ==> RaisedFor(dv, gw, r.error)
      ensures r.Ok? ==> pm.trades == old(pm.trades) + rb.adjusted + rb.delisting + gw.matches(tradeDate)
      ensures Synthetic(rb, dv, cal)
      ensures !finished ==> rb.adjusted == [] && rb.sold == []
      ensures finished && old(RebalanceReady(dv)) ==>
                CorporateActions(dv, cal, lastRebalanceDate, currentRebalanceDate, old(pm.holdings), old(pm.positions), rb)
    {
      r := Ok;
      day := DayRecord(tradeDate, finished, []);
      rb := Rebalance([], [], [], pm.positions, pm.holdings, pm.positions);
      if finished {
        var handed;
        r, handed, rb := RebalanceDay(cal, dv, gw, st);
        if r.Raised? {
          return;
        }
        day := day.(universe := handed.value);
      }
      r := DeliverTrades(gw.matches(tradeDate), tradeDate);
    }

    /** One pass of `run_alpha`'s loop, on a day not after the end date: run the day and,
        when it completed, log it and step to the next (rebalance) day. */
    method StepDay(cal: Calendar, dv: DataView, gw: Gateway, st: StrategyPlan, finished: bool, ghost log: seq<DayRecord>)
      returns (r: Outcome, day: DayRecord, next: bool, ghost rb: Rebalance)
      requires CalendarWf(cal) && PeriodAdvances(st.periodDay) && DataViewWf(dv)
      requires pm.Valid() && RebalanceOrdered()
      requires RunLog(cal, dv, gw, st, universe, startDate, endDate, log)
      requires finished == gw.matchFinished(PrevDate(startDate, log, |log|))
      requires tradeDate == NextDay(cal, st.periodDay, finished, PrevDate(startDate, log, |log|)) && tradeDate <= endDate
      modifies this`tradeDate, this`lastDate, this`lastRebalanceDate, this`currentRebalanceDate
      modifies this`strategyCash, this`goalPositions
      modifies pm`trades, pm`positions, pm`holdings, pm`cumNetTurnover, pm`cash, pm`tradeStats, pm`tasks
      ensures pm.Valid() && RebalanceOrdered()
      ensures r.Raised? ==> tradeDate == old(tradeDate) && RaisedFor(dv, gw, r.error)
      ensures KindsKept(old(pm.tasks), pm.tasks)
      ensures r.Ok? <==> (finished ==> old(RebalanceReady(dv))) && AllQuiet(old(pm.tasks), gw.matches(old(tradeDate)))
      ensures r.Ok? ==>
        && RunLog(cal, dv, gw, st, universe, startDate, endDate, log + [day])
        && PrevDate(startDate, log + [day], |log| + 1) == day.date
        && next == gw.matchFinished(day.date)
        && tradeDate == NextDay(cal, st.periodDay, next, day.date)
        && old(tradeDate) < tradeDate
      ensures r.Ok? ==> day.date == old(tradeDate) && day.rebalanced == finished
      ensures r.Ok? ==> pm.trades == old(pm.trades) + rb.adjusted + rb.delisting + gw.matches(day.date)
      ensures Synthetic(rb, dv, cal)
      ensures !finished ==> rb.adjusted == [] && rb.sold == []
    {
      next := finished;
      r, day, rb := RunDay(cal, dv, gw, st, finished, PrevDate(startDate, log, |log|));
      if r.Raised? {
        return;
      }
      RunLogSnoc(cal, dv, gw, st, universe, startDate, endDate, log, day);
      next := gw.matchFinished(tradeDate);
      GoNextRebalanceDay(cal, st.periodDay, next);
    }

    /** `run_alpha`: from the start date, step to the next (rebalance) day until the end
        date is passed; a day after finished matching adjusts for corporate actions, plans
        the universe and the cash and then takes the day's fills; any other day only takes
        the fills. A raised error ends the run. */
    method RunAlpha(cal: Calendar, dv: DataView, gw: Gateway, st: StrategyPlan)
      returns (r: Outcome, log: seq<DayRecord>, ghost rebalances: seq<Rebalance>)
      requires CalendarWf(cal) && PeriodAdvances(st.periodDay) && DataViewWf(dv)
      requires pm.Valid()
      requires currentRebalanceDate > 0 ==> lastRebalanceDate <= currentRebalanceDate <= startDate
      modifies this`tradeDate, this`lastDate, this`lastRebalanceDate, this`currentRebalanceDate
      modifies this`strategyCash, this`goalPositions
      modifies pm`trades, pm`positions, pm`holdings, pm`cumNetTurnover, pm`cash, pm`tradeStats, pm`tasks
      ensures pm.Valid() && RebalanceOrdered()
      ensures RunLog(cal, dv, gw, st, universe, startDate, endDate, log)
      ensures var last := PrevDate(startDate, log, |log|);
              tradeDate == NextDay(cal, st.periodDay, gw.matchFinished(last), last)
      ensures r.Ok? <==> endDate < tradeDate
      ensures r.Raised? ==> RaisedFor(dv, gw, r.error)
      ensures KindsKept(old(pm.tasks), pm.tasks)
      ensures RunRebalances(dv, cal, log, rebalances)
      ensures r.Ok? ==> pm.trades == old(pm.trades) + RunTrades(gw, log, rebalances)
    {
      tradeDate := startDate;
      log, rebalances := [], [];
      r := Ok;
      var finished := gw.matchFinished(tradeDate);
      GoNextRebalanceDay(cal, st.periodDay, finished);
      while tradeDate <= endDate
        invariant pm.Valid() && RebalanceOrdered() && r.Ok?
        invariant RunLog(cal, dv, gw, st, universe, startDate, endDate, log)
        invariant finished == gw.matchFinished(PrevDate(startDate, log, |log|))
        invariant tradeDate == NextDay(cal, st.periodDay, finished, PrevDate(startDate, log, |log|))
        invariant KindsKept(old(pm.tasks), pm.tasks)
        invariant RunRebalances(dv, cal, log, rebalances)
        invariant pm.trades == old(pm.trades) + RunTrades(gw, log, rebalances)
        decreases endDate - tradeDate
      {
        var day;
        ghost var before, tradesBefore := pm.tasks, pm.trades;
        ghost var rb;
        r, day, finished, rb := StepDay(cal, dv, gw, st, finished, log);
        KindsKeptTrans(old(pm.tasks), before, pm.tasks);
        if r.Raised? {
          return;
        }
        RunTradesStep(gw, log, rebalances, day, rb, old(pm.trades), tradesBefore, pm.trades);
        RunRebalancesSnoc(dv, cal, log, rebalances, day, rb);
        log, rebalances := log + [day], rebalances + [rb];
      }
    }
  }

  /** Record `rec` is the day the periodic driver steps to from `prev`: it rebalances
      exactly when the gateway's matching had finished on `prev`, its date is the next day
      accordingly, and a rebalancing day hands the filtered universe of its date to
      portfolio construction. */
  predicate DayFollows(cal: Calendar, dv: DataView, gw: Gateway, st: StrategyPlan, universe: seq<string>,
                       prev: int, rec: DayRecord)
  {
    && rec.rebalanced == gw.matchFinished(prev)
    && rec.date == NextDay(cal, st.periodDay, rec.rebalanced, prev)
    && rec.universe == if rec.rebalanced
                       then RebalanceUniverse(universe, dv.universeDefined, dv.indexMembers(rec.date), dv.instruments, rec.date)
                       else []
  }

  /** The log of a run from `startDate` to `endDate`: every record follows the one before
      it (the first follows the start date) and lies on or before the end date. */
  predicate RunLog(cal: Calendar, dv: DataView, gw: Gateway, st: StrategyPlan, universe: seq<string>,
                   startDate: int, endDate: int, log: seq<DayRecord>)
    decreases |log|
  {
    log == [] ||
      var n := |log|;
      && RunLog(cal, dv, gw, st, universe, startDate, endDate, log[..n - 1])
      && DayFollows(cal, dv, gw, st, universe, PrevDate(startDate, log, n - 1), log[n - 1])
      && log[n - 1].date <= endDate
  }

  /** One record of synthetic trades per logged day; a day that did not rebalance has none. */
  predicate RunRebalances(dv: DataView, cal: Calendar, log: seq<DayRecord>, rebalances: seq<Rebalance>)
  {
    && |rebalances| == |log|
    && (forall i :: 0 <= i < |log| ==> Synthetic(rebalances[i], dv, cal))
    && (forall i :: 0 <= i < |log| && !log[i].rebalanced ==> rebalances[i].adjusted == [] && rebalances[i].sold == [])
  }

  /** The trades a run logs, day by day: each day's synthetic rebalance trades, then the
      gateway's fills of that day. */
  function RunTrades(gw: Gateway, log: seq<DayRecord>, rebalances: seq<Rebalance>): seq<Trade>
    requires |rebalances| == |log|
    decreases |log|
  {
    if log == [] then []
    else
      var n := |log|;
      var rb := rebalances[n - 1];
      RunTrades(gw, log[..n - 1], rebalances[..n - 1]) + rb.adjusted + rb.delisting + gw.matches(log[n - 1].date)
  }

  lemma RunTradesSnoc(gw: Gateway, log: seq<DayRecord>, rebalances: seq<Rebalance>, day: DayRecord, rb: Rebalance)
    requires |rebalances| == |log|
    ensures RunTrades(gw, log + [day], rebalances + [rb])
         == RunTrades(gw, log, rebalances) + rb.adjusted + rb.delisting + gw.matches(day.date)
  {
    assert (log + [day])[..|log|] == log && (rebalances + [rb])[..|log|] == rebalances;
  }

  /** A logged day brings one more record of synthetic trades, empty when it did not rebalance. */
  lemma RunRebalancesSnoc(dv: DataView, cal: Calendar, log: seq<DayRecord>, rebalances: seq<Rebalance>,
                          day: DayRecord, rb: Rebalance)
    requires RunRebalances(dv, cal, log, rebalances) && Synthetic(rb, dv, cal)
    requires !day.rebalanced ==> rb.adjusted == [] && rb.sold == []
    ensures RunRebalances(dv, cal, log + [day], rebalances + [rb])
  {
    var log', rebalances' := log + [day], rebalances + [rb];
    forall i | 0 <= i < |log'|
      ensures Synthetic(rebalances'[i], dv, cal)
      ensures !log'[i].rebalanced ==> rebalances'[i].adjusted == [] && rebalances'[i].sold == []
    {
      if i < |log| {
        assert rebalances'[i] == rebalances[i] && log'[i] == log[i];
      }
    }
  }

  /** A completed day's synthetic trades and fills appended to the trade log keep it
      equal to the run's trades, the day included. */
  lemma RunTradesStep(gw: Gateway, log: seq<DayRecord>, rebalances: seq<Rebalance>, day: DayRecord, rb: Rebalance,
                      trades0: seq<Trade>, tradesPre: seq<Trade>, tradesPost: seq<Trade>)
    requires |rebalances| == |log|
    requires tradesPre == trades0 + RunTrades(gw, log, rebalances)
    requires tradesPost == tradesPre + rb.adjusted + rb.delisting + gw.matches(day.date)
    ensures tradesPost == trades0 + RunTrades(gw, log + [day], rebalances + [rb])
  {
    var ran, fills := RunTrades(gw, log, rebalances), gw.matches(day.date);
    RunTradesSnoc(gw, log, rebalances, day, rb);
    ConcatAssoc(trades0, ran, rb.adjusted);
    ConcatAssoc(trades0, ran + rb.adjusted, rb.delisting);
    ConcatAssoc(trades0, ran + rb.adjusted + rb.delisting, fills);
  }

  /** A run log grows by a day that follows its last day and is not after the end date. */
  lemma RunLogSnoc(cal: Calendar, dv: DataView, gw: Gateway, st: StrategyPlan, universe: seq<string>,
                   startDate: int, endDate: int, log: seq<DayRecord>, day: DayRecord)
    requires RunLog(cal, dv, gw, st, universe, startDate, endDate, log)
    requires DayFollows(cal, dv, gw, st, universe, PrevDate(startDate, log, |log|), day) && day.date <= endDate
    ensures RunLog(cal, dv, gw, st, universe, startDate, endDate, log + [day])
    ensures PrevDate(startDate, log + [day], |log| + 1) == day.date
  {
    var longer := log + [day];
    assert longer[..|log|] == log;
    assert PrevDate(startDate, longer, |log|) == PrevDate(startDate, log, |log|);
  }

  /** Read record by record: each day of the log follows its predecessor and is not after
      the end date. */
  lemma {:induction false} RunLogAt(cal: Calendar, dv: DataView, gw: Gateway, st: StrategyPlan, universe: seq<string>,
                                    startDate: int, endDate: int, log: seq<DayRecord>, i: int)
    requires RunLog(cal, dv, gw, st, universe, startDate, endDate, log)
    requires 0 <= i < |log|
    ensures DayFollows(cal, dv, gw, st, universe, PrevDate(startDate, log, i), log[i])
    ensures log[i].date <= endDate
    decreases |log|
  {
    var n := |log|;
    var init := log[..n - 1];
    assert RunLog(cal, dv, gw, st, universe, startDate, endDate, init);
    if i < n - 1 {
      RunLogAt(cal, dv, gw, st, universe, startDate, endDate, init, i);
      assert init[i] == log[i];
      assert PrevDate(startDate, init, i) == PrevDate(startDate, log, i) by {
        if i > 0 {
          assert init[i - 1] == log[i - 1];
        }
      }
    }
  }

  /** On a well-formed calendar with an advancing period, the days of a run are trade
      dates after the start date, in strictly increasing order. */
  lemma {:induction false} RunLogDates(cal: Calendar, dv: DataView, gw: Gateway, st: StrategyPlan, universe: seq<string>,
                                       startDate: int, endDate: int, log: seq<DayRecord>)
    requires CalendarWf(cal) && PeriodAdvances(st.periodDay)
    requires RunLog(cal, dv, gw, st, universe, startDate, endDate, log)
    ensures forall i :: 0 <= i < |log| ==> startDate < log[i].date <= endDate && cal.isTradeDate(log[i].date)
    ensures forall i, j :: 0 <= i < j < |log| ==> log[i].date < log[j].date
    decreases |log|
  {
    if log != [] {
      var n := |log|;
      var init := log[..n - 1];
      RunLogDates(cal, dv, gw, st, universe, startDate, endDate, init);
      assert forall i :: 0 <= i < n - 1 ==> init[i] == log[i];
      var prev := PrevDate(startDate, log, n - 1);
      assert prev < log[n - 1].date && cal.isTradeDate(log[n - 1].date);
      assert startDate <= prev;
    }
  }

  /** The tick-driven driver. */
  class EventBacktest {
    const pm: PortfolioManager
    var tradeDate: int

    constructor (pm: PortfolioManager, tradeDate: int)
      ensures this.pm == pm && this.tradeDate == tradeDate
    {
      this.pm := pm;
      this.tradeDate := tradeDate;
    }

    /** The strategy's trade callback as far as the manager sees it: the fill reaches the
        manager's trade handler, keyed by the driver's trade date. */
    method OnTradeInd(t: Trade) returns (r: Outcome)
      requires pm.Valid()
      modifies pm`trades, pm`positions, pm`holdings, pm`cumNetTurnover, pm`cash, pm`tradeStats, pm`tasks
      ensures pm.Valid() && pm.trades == old(pm.trades) + [t]
      ensures pm.positions == ApplyFill(old(pm.positions), t)
      ensures pm.cumNetTurnover == old(pm.cumNetTurnover) + Turnover(t)
      ensures pm.cash == CashFormula(pm.initBalance, pm.cumNetTurnover, PosOf(pm.positions, t.symbol), t.fillPrice)
      ensures pm.tradeStats == Settle(old(pm.tradeStats), t, tradeDate)
      ensures IsSentinel(t.entrustNo) || t.taskId !in old(pm.tasks) ==> r.Ok? && pm.tasks == old(pm.tasks)
      ensures !IsSentinel(t.entrustNo) && t.taskId in old(pm.tasks) ==>
        match CheckDone(old(pm.tasks)[t.taskId])
        case Success(task) => r.Ok? && pm.tasks == old(pm.tasks)[t.taskId := task]
        case Failure(e) => r == Raised(e) && pm.tasks == old(pm.tasks)
      ensures r.Ok? <==> TradeQuiet(old(pm.tasks), t)
      ensures r.Raised? ==> r.error.NotImplemented?
      ensures KindsKept(old(pm.tasks), pm.tasks)
    {
      r := pm.OnTrade(t, tradeDate);
    }

    /** The strategy's order-status callback as far as the manager sees it: an indication
        for a known task that is not a synthetic adjustment enters the order book and its
        task, and a Cancelled / Rejected one releases its remainder and re-checks the task;
        any other changes nothing. */
    method OnOrderStatusInd(ind: OrderStatusInd) returns (r: Outcome)
      requires pm.Valid()
      modifies pm`orders, pm`tasks, pm`tradeStats
      ensures pm.Valid()
      ensures !(ind.taskId in old(pm.tasks) && !IsSentinel(ind.entrustNo)) ==>
        r.Ok? && pm.orders == old(pm.orders) && pm.tasks == old(pm.tasks) && pm.tradeStats == old(pm.tradeStats)
      ensures ind.taskId in old(pm.tasks) && !IsSentinel(ind.entrustNo) ==>
        && pm.orders == old(pm.orders)[ind.entrustNo := ind]
        && var task := old(pm.tasks)[ind.taskId];
           var copied := task.(payload := CopyStatus(task.payload, ind));
           if !IsTerminalRelease(ind.status) then
             pm.tasks == old(pm.tasks)[ind.taskId := copied] && pm.tradeStats == old(pm.tradeStats) && r.Ok?
           else
             && pm.tradeStats == Release(old(pm.tradeStats), ind, tradeDate)
             && match CheckDone(copied)
                case Success(t) => pm.tasks == old(pm.tasks)[ind.taskId := t] && r.Ok?
                case Failure(e) => pm.tasks == old(pm.tasks)[ind.taskId := copied] && r == Raised(e)
      ensures r.Ok? <==> StatusQuiet(old(pm.tasks), ind)
      ensures r.Raised? ==> r.error.NotImplemented?
      ensures KindsKept(old(pm.tasks), pm.tasks)
    {
      var forwarded;
      r, forwarded := pm.OnOrderStatus(ind, tradeDate);
    }

    /** One matched pair of `process_quote`: the trade goes to the strategy first, then
        the status, unless the trade raised. */
    method DeliverPair(tradeInd: Trade, statusInd: OrderStatusInd) returns (r: Outcome, d: seq<Delivery>)
      requires pm.Valid()
      modifies pm`trades, pm`positions, pm`holdings, pm`cumNetTurnover, pm`cash, pm`tradeStats, pm`tasks, pm`orders
      ensures pm.Valid() && pm.trades == old(pm.trades) + [tradeInd]
      ensures d == [TradeDelivered(tradeInd), StatusDelivered(statusInd)] || (r.Raised? && d == [TradeDelivered(tradeInd)])
      ensures |d| == 2 <==> TradeQuiet(old(pm.tasks), tradeInd)
      ensures r.Ok? <==> PairQuiet(old(pm.tasks), (tradeInd, statusInd))
      ensures r.Raised? ==> r.error.NotImplemented?
      ensures KindsKept(old(pm.tasks), pm.tasks)
      ensures pm.orders == if |d| == 2 && StatusApplies(old(pm.tasks).Keys, statusInd)
                           then old(pm.orders)[statusInd.entrustNo := statusInd] else old(pm.orders)
    {
      r := OnTradeInd(tradeInd);
      d := [TradeDelivered(tradeInd)];
      if r.Raised? {
        return;
      }
      ghost var before := pm.tasks;
      r := OnOrderStatusInd(statusInd);
      d := d + [StatusDelivered(statusInd)];
      KindsKeptTrans(old(pm.tasks), before, pm.tasks);
      KindsKeptStatus(old(pm.tasks), before, statusInd);
    }

    /** Where the delivery of a match result stands after its first `i` pairs, all quiet:
        their indications delivered, their trades recorded, task kinds kept and the order
        book holding their statuses. */
    ghost predicate DeliveredUpTo(results: seq<(Trade, OrderStatusInd)>, i: int, delivered: seq<Delivery>,
                                  trades0: seq<Trade>, tasks0: map<int, Task>, orders0: map<int, Order>)
      reads pm
    {
      && 0 <= i <= |results|
      && pm.Valid()
      && delivered == Deliveries(results)[..2 * i]
      && pm.trades == trades0 + DeliveredTrades(delivered)
      && KindsKept(tasks0, pm.tasks)
      && (forall j :: 0 <= j < i ==> PairQuiet(tasks0, results[j]))
      && pm.orders == OrdersAfter(orders0, tasks0.Keys, results[..i])
    }

    /** Pair `i` of a match result, delivered after the pairs before it: the delivery
        either moves on past the pair or stops at it, as `StoppedAt` says. */
    method DeliverAt(results: seq<(Trade, OrderStatusInd)>, i: int, delivered: seq<Delivery>,
                     ghost trades0: seq<Trade>, ghost tasks0: map<int, Task>, ghost orders0: map<int, Order>)
      returns (r: Outcome, delivered': seq<Delivery>)
      requires i < |results| && DeliveredUpTo(results, i, delivered, trades0, tasks0, orders0)
      modifies pm`trades, pm`positions, pm`holdings, pm`cumNetTurnover, pm`cash, pm`tradeStats, pm`tasks, pm`orders
      ensures r.Ok? <==> PairQuiet(tasks0, results[i])
      ensures r.Ok? ==> DeliveredUpTo(results, i + 1, delivered', trades0, tasks0, orders0)
      ensures r.Raised? ==>
        && pm.Valid() && r.error.NotImplemented?
        && 0 < |delivered'| <= 2 * |results| && delivered' == Deliveries(results)[..|delivered'|]
        && pm.trades == trades0 + DeliveredTrades(delivered') && KindsKept(tasks0, pm.tasks)
        && StoppedAt(tasks0, orders0, pm.orders, results, |delivered'|)
    {
      ghost var tradesPre, tasksPre, ordersPre := pm.trades, pm.tasks, pm.orders;
      var d;
      r, d := DeliverPair(results[i].0, results[i].1);
      delivered' := delivered + d;
      PairStep(results, i, delivered, d, r.Ok?, tasks0, orders0, tasksPre, ordersPre, pm.tasks, pm.orders);
      TradesDelivered(trades0, delivered, d, results[i], tradesPre, pm.trades);
    }

    /** The matched pairs of `process_quote`, in order, each trade first; a raised error
        ends the delivery after the indication that raised it. */
    method DeliverMatches(results: seq<(Trade, OrderStatusInd)>) returns (r: Outcome, delivered: seq<Delivery>)
      requires pm.Valid()
      modifies pm`trades, pm`positions, pm`holdings, pm`cumNetTurnover, pm`cash, pm`tradeStats, pm`tasks, pm`orders
      ensures pm.Valid()
      ensures r.Ok? ==> delivered == Deliveries(results) && pm.trades == old(pm.trades) + TradesOf(results)
      ensures r.Raised? ==> 0 < |delivered| <= 2 * |results| && delivered == Deliveries(results)[..|delivered|]
      ensures pm.trades == old(pm.trades) + DeliveredTrades(delivered)
      ensures KindsKept(old(pm.tasks), pm.tasks)
      ensures r.Ok? <==> forall i :: 0 <= i < |results| ==> PairQuiet(old(pm.tasks), results[i])
      ensures r.Ok? ==> pm.orders == OrdersAfter(old(pm.orders), old(pm.tasks).Keys, results)
      ensures r.Raised? ==> r.error.NotImplemented?
      ensures r.Raised? ==> StoppedAt(old(pm.tasks), old(pm.orders), pm.orders, results, |delivered|)
    {
      delivered := [];
      r := Ok;
      var i := 0;
      while i < |results|
        invariant r.Ok? && DeliveredUpTo(results, i, delivered, old(pm.trades), old(pm.tasks), old(pm.orders))
      {
        r, delivered := DeliverAt(results, i, delivered, old(pm.trades), old(pm.tasks), old(pm.orders));
        if r.Raised? {
          return;
        }
        i := i + 1;
      }
      ghost var all := Deliveries(results);
      assert all[..2 * i] == all && results[..i] == results;
      DeliveriesCarryTrades(results);
    }

    /** `process_quote`: each (trade, status) pair the gateway matched on the quote goes to
        the strategy trade first, then status; the quote itself is delivered last. A raised
        error ends the delivery after the indication that raised it. */
    method ProcessQuote(results: seq<(Trade, OrderStatusInd)>, quote: Quote) returns (r: Outcome, delivered: seq<Delivery>)
      requires pm.Valid()
      modifies pm`trades, pm`positions, pm`holdings, pm`cumNetTurnover, pm`cash, pm`tradeStats, pm`tasks, pm`orders
      ensures pm.Valid()
      ensures r.Ok? ==> delivered == Deliveries(results) + [QuoteDelivered(quote)]
      ensures r.Ok? ==> pm.trades == old(pm.trades) + TradesOf(results)
      ensures r.Ok? ==> pm.orders == OrdersAfter(old(pm.orders), old(pm.tasks).Keys, results)
      ensures r.Raised? ==> 0 < |delivered| <= 2 * |results| && delivered == Deliveries(results)[..|delivered|]
      ensures pm.trades == old(pm.trades) + DeliveredTrades(delivered)
      ensures KindsKept(old(pm.tasks), pm.tasks)
      ensures r.Ok? <==> forall i :: 0 <= i < |results| ==> PairQuiet(old(pm.tasks), results[i])
      ensures r.Raised? ==> r.error.NotImplemented?
      ensures r.Raised? ==> StoppedAt(old(pm.tasks), old(pm.orders), pm.orders, results, |delivered|)
    {
      r, delivered := DeliverMatches(results);
      if r.Ok? {
        DeliveredTradesSnoc(delivered, QuoteDelivered(quote));
        delivered := delivered + [QuoteDelivered(quote)];
      }
    }
  }

  /** What one fill handed to the manager does to the state of a day's delivery, on
      values: the fill is recorded and settled after the ones before it, and the delivery
      goes on exactly when the fill is quiet. */
  lemma TradeStep(trades: seq<Trade>, i: int, date: int, ok: bool,
                  trades0: seq<Trade>, tasks0: map<int, Task>, stats0: map<StatKey, TradeStat>,
                  tradesPre: seq<Trade>, tasksPre: map<int, Task>, statsPre: map<StatKey, TradeStat>,
                  tradesPost: seq<Trade>, tasksPost: map<int, Task>, statsPost: map<StatKey, TradeStat>)
    requires 0 <= i < |trades|
    requires tradesPre == trades0 + trades[..i]
    requires statsPre == SettleAll(stats0, trades[..i], date)
    requires KindsKept(tasks0, tasksPre) && AllQuiet(tasks0, trades[..i])
    requires tradesPost == tradesPre + [trades[i]]
    requires statsPost == Settle(statsPre, trades[i], date)
    requires KindsKept(tasksPre, tasksPost)
    requires ok <==> TradeQuiet(tasksPre, trades[i])
    ensures tradesPost == trades0 + trades[..i + 1]
    ensures trades0 <= tradesPost <= trades0 + trades
    ensures statsPost == SettleAll(stats0, trades[..i + 1], date)
    ensures statsPost == SettleAll(stats0, tradesPost[|trades0|..], date)
    ensures KindsKept(tasks0, tasksPost)
    ensures ok ==> AllQuiet(tasks0, trades[..i + 1])
    ensures !ok ==> !AllQuiet(tasks0, trades) && !AllQuiet(tasksPost, trades)
  {
    TakeOneMore(trades, i);
    assert trades[..i + 1][..i] == trades[..i] && trades[..i + 1][i] == trades[i];
    ConcatAssoc(trades0, trades[..i], [trades[i]]);
    SuffixAfter(trades0, trades[..i + 1]);
    assert trades0 + trades == trades0 + trades[..i + 1] + trades[i + 1..] by {
      assert trades == trades[..i + 1] + trades[i + 1..];
    }
    KindsKeptTrans(tasks0, tasksPre, tasksPost);
    KindsKeptTrade(tasks0, tasksPre, trades[i]);
    KindsKeptTrade(tasksPre, tasksPost, trades[i]);
  }

  /** What one delivered pair does to the state of a match-result delivery, on values:
      the pair's effect (the trade recorded, the kinds kept, the status recorded when it
      was delivered and applies) moves the delivery past the pair, or stops it there. */
  lemma PairStep(results: seq<(Trade, OrderStatusInd)>, i: int, delivered: seq<Delivery>, d: seq<Delivery>, ok: bool,
                 tasks0: map<int, Task>, orders0: map<int, Order>,
                 tasksPre: map<int, Task>, ordersPre: map<int, Order>,
                 tasksPost: map<int, Task>, ordersPost: map<int, Order>)
    requires 0 <= i < |results|
    requires delivered == Deliveries(results)[..2 * i]
    requires KindsKept(tasks0, tasksPre)
    requires forall j :: 0 <= j < i ==> PairQuiet(tasks0, results[j])
    requires ordersPre == OrdersAfter(orders0, tasks0.Keys, results[..i])
    requires d == [TradeDelivered(results[i].0), StatusDelivered(results[i].1)] || (!ok && d == [TradeDelivered(results[i].0)])
    requires |d| == 2 <==> TradeQuiet(tasksPre, results[i].0)
    requires ok <==> PairQuiet(tasksPre, results[i])
    requires KindsKept(tasksPre, tasksPost)
    requires ordersPost == if |d| == 2 && StatusApplies(tasksPre.Keys, results[i].1)
                           then ordersPre[results[i].1.entrustNo := results[i].1] else ordersPre
    ensures ok <==> PairQuiet(tasks0, results[i])
    ensures KindsKept(tasks0, tasksPost)
    ensures ok ==>
      && delivered + d == Deliveries(results)[..2 * (i + 1)]
      && (forall j :: 0 <= j < i + 1 ==> PairQuiet(tasks0, results[j]))
      && ordersPost == OrdersAfter(orders0, tasks0.Keys, results[..i + 1])
    ensures !ok ==>
      && 0 < |delivered + d| <= 2 * |results| && delivered + d == Deliveries(results)[..|delivered + d|]
      && StoppedAt(tasks0, orders0, ordersPost, results, |delivered + d|)
  {
    KindsKeptTrans(tasks0, tasksPre, tasksPost);
    KindsKeptTrade(tasks0, tasksPre, results[i].0);
    KindsKeptStatus(tasks0, tasksPre, results[i].1);
    if ok {
      PairPasses(results, i, delivered, orders0, tasks0.Keys, ordersPre);
    } else {
      PairStops(results, i, delivered, d, tasks0, orders0, ordersPre, ordersPost);
    }
  }

  /** The trade log of a delivery holds exactly the trades delivered: a pair adds its
      trade, whether or not its status followed. */
  lemma TradesDelivered(trades0: seq<Trade>, delivered: seq<Delivery>, d: seq<Delivery>, pair: (Trade, OrderStatusInd),
                        tradesPre: seq<Trade>, tradesPost: seq<Trade>)
    requires tradesPre == trades0 + DeliveredTrades(delivered)
    requires tradesPost == tradesPre + [pair.0]
    requires d == [TradeDelivered(pair.0), StatusDelivered(pair.1)] || d == [TradeDelivered(pair.0)]
    ensures tradesPost == trades0 + DeliveredTrades(delivered + d)
  {
    var before := DeliveredTrades(delivered);
    var withTrade := delivered + [TradeDelivered(pair.0)];
    DeliveredTradesSnoc(delivered, TradeDelivered(pair.0));
    assert DeliveredTrades(withTrade) == before + [pair.0];
    if |d| == 2 {
      assert delivered + d == withTrade + [StatusDelivered(pair.1)];
      DeliveredTradesSnoc(withTrade, StatusDelivered(pair.1));
    } else {
      assert delivered + d == withTrade;
    }
    assert DeliveredTrades(delivered + d) == before + [pair.0];
    assert tradesPost == trades0 + (before + [pair.0]);
  }

  /** A pair delivered in full extends the delivered prefix and the order book by it. */
  lemma PairPasses(results: seq<(Trade, OrderStatusInd)>, i: int, delivered: seq<Delivery>,
                   orders0: map<int, Order>, taskIds: set<int>, ordersPre: map<int, Order>)
    requires 0 <= i < |results|
    requires delivered == Deliveries(results)[..2 * i]
    requires ordersPre == OrdersAfter(orders0, taskIds, results[..i])
    ensures delivered + [TradeDelivered(results[i].0), StatusDelivered(results[i].1)] == Deliveries(results)[..2 * (i + 1)]
    ensures OrdersAfter(orders0, taskIds, results[..i + 1])
              == if StatusApplies(taskIds, results[i].1) then ordersPre[results[i].1.entrustNo := results[i].1] else ordersPre
  {
    DeliveriesStep(results, i);
    OrdersAfterStep(orders0, taskIds, results, i);
  }

  /** A pair that raised ends the delivery, after its trade alone or after both halves. */
  lemma PairStops(results: seq<(Trade, OrderStatusInd)>, i: int, delivered: seq<Delivery>, d: seq<Delivery>,
                  tasks0: map<int, Task>, orders0: map<int, Order>, ordersPre: map<int, Order>, ordersPost: map<int, Order>)
    requires 0 <= i < |results|
    requires delivered == Deliveries(results)[..2 * i]
    requires d == [TradeDelivered(results[i].0), StatusDelivered(results[i].1)] || d == [TradeDelivered(results[i].0)]
    requires forall j :: 0 <= j < i ==> PairQuiet(tasks0, results[j])
    requires !PairQuiet(tasks0, results[i]) && (|d| == 1 <==> !TradeQuiet(tasks0, results[i].0))
    requires ordersPre == OrdersAfter(orders0, tasks0.Keys, results[..i])
    requires ordersPost == if |d| == 2 && StatusApplies(tasks0.Keys, results[i].1)
                           then ordersPre[results[i].1.entrustNo := results[i].1] else ordersPre
    ensures 0 < |delivered + d| <= 2 * |results| && delivered + d == Deliveries(results)[..|delivered + d|]
    ensures StoppedAt(tasks0, orders0, ordersPost, results, |delivered + d|)
  {
    DeliveriesStep(results, i);
    if |d| == 1 {
      assert delivered + d == Deliveries(results)[..2 * i + 1];
      assert ordersPost == OrdersAfter(orders0, tasks0.Keys, results[..i]);
      StoppedAtPair(tasks0, orders0, ordersPost, results, i, 1);
    } else {
      assert delivered + d == Deliveries(results)[..2 * i + 2];
      OrdersAfterStep(orders0, tasks0.Keys, results, i);
      StoppedAtPair(tasks0, orders0, ordersPost, results, i, 2);
    }
  }

  /** Stored positions are exactly the non-flat ones, so zeroing the delisted ones removes
      exactly those keys. */
  lemma KeysAfterDelisting(before: map<string, Position>, after: map<string, Position>, delisted: set<string>)
    requires PositionsWf(before) && PositionsWf(after)
    requires forall s :: PosOf(after, s) == if s in before && s in delisted then 0.0 else PosOf(before, s)
    ensures after.Keys == before.Keys - delisted
  {
    forall s
      ensures s in after <==> s in before && s !in delisted
    {
      assert PosOf(after, s) == if s in before && s in delisted then 0.0 else PosOf(before, s);
    }
  }

  /** No symbol occurs twice, stated one element at a time from the end. */
  predicate NoRepeats(s: seq<string>)
    decreases |s|
  {
    s == [] || (NoRepeats(s[..|s| - 1]) && s[|s| - 1] !in s[..|s| - 1])
  }

  lemma {:induction false} NoRepeatsDistinct(s: seq<string>)
    ensures NoRepeats(s) <==> forall i, j :: 0 <= i < j < |s| ==> s[i] != s[j]
    decreases |s|
  {
    if s != [] {
      var n := |s|;
      var p := s[..n - 1];
      NoRepeatsDistinct(p);
      if NoRepeats(s) {
        forall i, j | 0 <= i < j < n
          ensures s[i] != s[j]
        {
          if j == n - 1 {
            assert s[i] == p[i];
          } else {
            assert s[i] == p[i] && s[j] == p[j];
          }
        }
      }
      if forall i, j :: 0 <= i < j < n ==> s[i] != s[j] {
        forall i, j | 0 <= i < j < n - 1
          ensures p[i] != p[j]
        {
          assert s[i] != s[j];
        }
        forall k | 0 <= k < n - 1
          ensures p[k] != s[n - 1]
        {
          assert s[k] != s[n - 1];
        }
      }
    }
  }

}

=== FILE: basic.dfy ===
/** The records the portfolio manager and the backtest drivers exchange:
    orders, trade indications, tasks, positions and per-day trade statistics,
    together with the error signals the Python code raises. */
module Basic {

  /** Direction of an order action. Every action of the trading vocabulary is
      classified by `is_positive` (buy-like) or `is_negative` (sell-like);
      the model keeps only that direction. */
  datatype Action = Buy | Sell

  predicate IsPositive(a: Action) { a.Buy? }

  datatype OrderStatus = New | Accepted | PartiallyFilled | Filled | Cancelled | Rejected

  /** An order, and also an order-status indication (which carries the same fields). */
  datatype Order = Order(
    entrustNo: int,
    taskId: int,
    symbol: string,
    action: Action,
    entrustSize: real,
    fillSize: real,
    status: OrderStatus)

  type OrderStatusInd = Order

  /** Terminal for task completion: completely filled, or cancelled / rejected. */
  predicate IsFinished(o: Order) {
    o.status == Filled || o.status == Cancelled || o.status == Rejected || o.fillSize == o.entrustSize
  }

  /** The release of an order-status indication is only made on these two statuses. */
  predicate IsTerminalRelease(s: OrderStatus) {
    s == Cancelled || s == Rejected
  }

  /** A trade (fill) indication. */
  datatype Trade = Trade(
    taskId: int,
    entrustNo: int,
    symbol: string,
    action: Action,
    fillPrice: real,
    fillSize: real,
    fillDate: int,
    fillTime: int,
    fillNo: int)

  /** Identifiers reserved for trades the backtest synthesises itself. */
  const PositionAdjustNo: int := 101010
  const DelistAdjustNo: int := 202020

  predicate IsSentinel(entrustNo: int) {
    entrustNo == PositionAdjustNo || entrustNo == DelistAdjustNo
  }

  /** One entry of a goal-portfolio payload: a dictionary item keyed by entrust number. */
  datatype GoalEntry = GoalEntry(key: int, order: Order)

  /** The task payload, tagged by the task's `function_name`. */
  datatype Payload =
    | PlaceOrder(order: Order)
    | PlaceBatchOrder(orders: seq<Order>)
    | GoalPortfolio(entries: seq<GoalEntry>)
    | BasketOrder
    | Unsupported(functionName: string)

  function FunctionName(p: Payload): string {
    match p
    case PlaceOrder(_) => "place_order"
    case PlaceBatchOrder(_) => "place_batch_order"
    case GoalPortfolio(_) => "goal_portfolio"
    case BasketOrder => "basket_order"
    case Unsupported(name) => name
  }

  /** A dictionary never holds the same key twice. */
  predicate DistinctKeys(entries: seq<GoalEntry>) {
    forall i, j :: 0 <= i < j < |entries| ==> entries[i].key != entries[j].key
  }

  predicate WellFormedPayload(p: Payload) {
    p.GoalPortfolio? ==> DistinctKeys(p.entries)
  }

  /** The orders of a goal portfolio, in dictionary order. */
  function GoalOrders(entries: seq<GoalEntry>): (os: seq<Order>)
    ensures |os| == |entries|
    ensures forall i :: 0 <= i < |entries| ==> os[i] == entries[i].order
  {
    seq(|entries|, i requires 0 <= i < |entries| => entries[i].order)
  }

  /** The orders a payload carries, whatever its kind; none for the unsupported kinds. */
  function PayloadOrders(p: Payload): seq<Order> {
    match p
    case PlaceOrder(o) => [o]
    case PlaceBatchOrder(os) => os
    case GoalPortfolio(es) => GoalOrders(es)
    case BasketOrder => []
    case Unsupported(_) => []
  }

  /** The kinds whose orders `add_task` reserves and `_update_task_if_done` inspects. */
  predicate IsOrderKind(p: Payload) {
    p.PlaceOrder? || p.PlaceBatchOrder? || p.GoalPortfolio?
  }

  datatype TaskStatus = Pending | Done

  datatype Task = Task(taskId: int, payload: Payload, status: TaskStatus)

  datatype Position = Position(symbol: string, currentSize: real)

  /** Reserved ("want") and filled sizes of one symbol on one trade date. */
  datatype TradeStat = TradeStat(
    symbol: string,
    buyWant: real,
    sellWant: real,
    buyFilled: real,
    sellFilled: real)

  /** The trade-statistics key: a symbol on a trade date. */
  datatype StatKey = StatKey(symbol: string, date: int)

  /** The exceptions the Python code raises on the paths the model keeps. */
  datatype Error =
    | NotImplemented(what: string)
    | KeyError(key: string)
    | ValueError(message: string)
    | AttributeError(name: string)
    | TypeError(message: string)

  datatype Outcome = Ok | Raised(error: Error)

  datatype Result<T> = Success(value: T) | Failure(error: Error)

  /** A dictionary lookup with `.get(key, None)`. */
  datatype Option<T> = None | Some(value: T)

  // ---------------------------------------------------------------------------
  // Sequence steps the loop proofs share

  lemma TakeOneMore<T>(s: seq<T>, k: int)
    requires 0 <= k < |s|
    ensures s[..k + 1] == s[..k] + [s[k]]
  {
  }

  lemma TakeTwoMore<T>(s: seq<T>, k: int)
    requires 0 <= k && k + 2 <= |s|
    ensures s[..k] + [s[k]] == s[..k + 1]
    ensures s[..k] + [s[k], s[k + 1]] == s[..k + 2]
  {
    assert s[..k + 2] == s[..k + 1] + [s[k + 1]];
  }

  lemma ConcatAssoc<T>(a: seq<T>, b: seq<T>, c: seq<T>)
    ensures a + (b + c) == (a + b) + c
  {
  }

  lemma SuffixAfter<T>(a: seq<T>, b: seq<T>)
    ensures (a + b)[|a|..] == b
  {
  }
}

=== FILE: ledger.dfy ===
/** Specification functions of the portfolio manager's bookkeeping: what one
    reservation, release, fill or completion check does to the state, and the
    sums (net fills, net turnover, market value) the state is kept equal to. */
module Ledger {
  import opened Basic

  // ---------------------------------------------------------------------------
  // Trade statistics

  /** `_get_trade_stat`: the stored statistics, or fresh zero statistics for the symbol. */
  function StatOrZero(stats: map<StatKey, TradeStat>, symbol: string, date: int): TradeStat {
    var k := StatKey(symbol, date);
    if k in stats then stats[k] else TradeStat(symbol, 0.0, 0.0, 0.0, 0.0)
  }

  /** `_update_trade_stat_from_order`: add the order's entrust size to the want size of
      its side (subtract it when rolling back). */
  function Reserve(stats: map<StatKey, TradeStat>, o: Order, date: int, rollBack: bool): map<StatKey, TradeStat> {
    var t := StatOrZero(stats, o.symbol, date);
    var delta := if rollBack then -o.entrustSize else o.entrustSize;
    stats[StatKey(o.symbol, date) :=
      if IsPositive(o.action) then t.(buyWant := t.buyWant + delta) else t.(sellWant := t.sellWant + delta)]
  }

  /** Reserve every order of a sequence, first to last. */
  function ReserveAll(stats: map<StatKey, TradeStat>, os: seq<Order>, date: int): map<StatKey, TradeStat>
    decreases |os|
  {
    if os == [] then stats
    else Reserve(ReserveAll(stats, os[..|os| - 1], date), os[|os| - 1], date, false)
  }

  /** Total entrust size of the orders of one symbol and one direction. */
  function DirectedSum(os: seq<Order>, symbol: string, a: Action): real
    decreases |os|
  {
    if os == [] then 0.0
    else
      var o := os[|os| - 1];
      DirectedSum(os[..|os| - 1], symbol, a) + (if o.symbol == symbol && o.action == a then o.entrustSize else 0.0)
  }

  /** The release made by a Cancelled / Rejected status indication: the unfilled
      remainder leaves the want size of the indication's side. */
  function Release(stats: map<StatKey, TradeStat>, ind: OrderStatusInd, date: int): map<StatKey, TradeStat> {
    var t := StatOrZero(stats, ind.symbol, date);
    var released := ind.entrustSize - ind.fillSize;
    stats[StatKey(ind.symbol, date) :=
      if IsPositive(ind.action) then t.(buyWant := t.buyWant - released) else t.(sellWant := t.sellWant - released)]
  }

  /** `_update_trade_stat_from_trade_ind`: the fill moves from want to filled on its side. */
  function Settle(stats: map<StatKey, TradeStat>, t: Trade, date: int): map<StatKey, TradeStat> {
    var s := StatOrZero(stats, t.symbol, date);
    stats[StatKey(t.symbol, date) :=
      if IsPositive(t.action)
      then s.(buyFilled := s.buyFilled + t.fillSize, buyWant := s.buyWant - t.fillSize)
      else s.(sellFilled := s.sellFilled + t.fillSize, sellWant := s.sellWant - t.fillSize)]
  }

  /** A fill conserves want + filled on both sides: it moves exactly its size from want to
      filled on its own side, leaves the other side and every other key alone. */
  lemma SettleConserves(stats: map<StatKey, TradeStat>, t: Trade, date: int)
    ensures var r := Settle(stats, t, date);
      && r.Keys == stats.Keys + {StatKey(t.symbol, date)}
      && (forall k :: k in stats && k != StatKey(t.symbol, date) ==> r[k] == stats[k])
      && var before, after := StatOrZero(stats, t.symbol, date), r[StatKey(t.symbol, date)];
      && after.symbol == before.symbol
      && after.buyWant + after.buyFilled == before.buyWant + before.buyFilled
      && after.sellWant + after.sellFilled == before.sellWant + before.sellFilled
      && (if IsPositive(t.action)
          then after.buyFilled == before.buyFilled + t.fillSize
               && after.sellWant == before.sellWant && after.sellFilled == before.sellFilled
          else after.sellFilled == before.sellFilled + t.fillSize
               && after.buyWant == before.buyWant && after.buyFilled == before.buyFilled)
  {
  }

  /** Rolling back a reservation restores the statistics the reservation started from
      (an absent entry reads as zero statistics before and after). */
  lemma ReserveRollBack(stats: map<StatKey, TradeStat>, o: Order, date: int, symbol: string, d: int)
    ensures StatOrZero(Reserve(Reserve(stats, o, date, false), o, date, true), symbol, d) == StatOrZero(stats, symbol, d)
  {
    var k := StatKey(o.symbol, date);
    if StatKey(symbol, d) == k {
      var t := StatOrZero(stats, o.symbol, date);
      if IsPositive(o.action) {
        assert t.buyWant + o.entrustSize + -o.entrustSize == t.buyWant;
      } else {
        assert t.sellWant + o.entrustSize + -o.entrustSize == t.sellWant;
      }
    }
  }

  /** Reserving a sequence of orders raises each want size of `symbol` on `date` by the
      total entrust size of that symbol's orders of that direction, and touches nothing else. */
  lemma {:induction false} ReserveAllWants(stats: map<StatKey, TradeStat>, os: seq<Order>, date: int, symbol: string)
    ensures var before, after := StatOrZero(stats, symbol, date), StatOrZero(ReserveAll(stats, os, date), symbol, date);
      && after.symbol == before.symbol
      && after.buyWant == before.buyWant + DirectedSum(os, symbol, Buy)
      && after.sellWant == before.sellWant + DirectedSum(os, symbol, Sell)
      && after.buyFilled == before.buyFilled
      && after.sellFilled == before.sellFilled
    ensures forall k: StatKey :: k.date != date ==>
      (k in ReserveAll(stats, os, date) <==> k in stats) &&
      (k in stats ==> ReserveAll(stats, os, date)[k] == stats[k])
    decreases |os|
  {
    if os != [] {
      var prefix := os[..|os| - 1];
      ReserveAllWants(stats, prefix, date, symbol);
    }
  }

  /** The life of one order's size in the statistics: reserved by `add_task`, filled by
      `fill` in one trade, and the rest released by a cancellation reporting that fill.
      The want size returns to where it started and the fill is counted once, in filled. */
  lemma OrderLifecycle(stats: map<StatKey, TradeStat>, o: Order, fill: real, date: int, price: real)
    ensures
      var t := Trade(o.taskId, o.entrustNo, o.symbol, o.action, price, fill, date, 0, 0);
      var cancel := o.(fillSize := fill, status := Cancelled);
      var before := StatOrZero(stats, o.symbol, date);
      var after := StatOrZero(Release(Settle(Reserve(stats, o, date, false), t, date), cancel, date), o.symbol, date);
      && after.buyWant == before.buyWant
      && after.sellWant == before.sellWant
      && after.buyFilled == before.buyFilled + (if IsPositive(o.action) then fill else 0.0)
      && after.sellFilled == before.sellFilled + (if IsPositive(o.action) then 0.0 else fill)
  {
    var before := StatOrZero(stats, o.symbol, date);
    var t := Trade(o.taskId, o.entrustNo, o.symbol, o.action, price, fill, date, 0, 0);
    var s1 := Reserve(stats, o, date, false);
    var s2 := Settle(s1, t, date);
    var mid := StatOrZero(s2, o.symbol, date);
    if IsPositive(o.action) {
      assert mid.buyWant == before.buyWant + o.entrustSize - fill;
      assert mid.buyWant - (o.entrustSize - fill) == before.buyWant;
    } else {
      assert mid.sellWant == before.sellWant + o.entrustSize - fill;
      assert mid.sellWant - (o.entrustSize - fill) == before.sellWant;
    }
  }

  // ---------------------------------------------------------------------------
  // Positions

  /** `get_pos`: the stored size, 0 for an absent symbol. */
  function PosOf(positions: map<string, Position>, symbol: string): real {
    if symbol in positions then positions[symbol].currentSize else 0.0
  }

  /** The signed size a trade moves: + for a buy-like action, − otherwise. */
  function Signed(t: Trade): real {
    if IsPositive(t.action) then t.fillSize else -t.fillSize
  }

  /** The signed money a trade moves into the cumulative net turnover. */
  function Turnover(t: Trade): real {
    if IsPositive(t.action) then t.fillPrice * t.fillSize else -(t.fillPrice * t.fillSize)
  }

  /** Positions as the manager stores them: keyed by their own symbol, never flat. */
  predicate PositionsWf(positions: map<string, Position>) {
    forall s :: s in positions ==> positions[s].symbol == s && positions[s].currentSize != 0.0
  }

  /** `_update_position_by_trade_ind`: a zero fill changes nothing; otherwise the symbol's
      size moves by the signed fill (from 0 when absent) and a flat position is dropped. */
  function ApplyFill(positions: map<string, Position>, t: Trade): (r: map<string, Position>)
    requires PositionsWf(positions)
    ensures PositionsWf(r)
    ensures forall s :: PosOf(r, s) == PosOf(positions, s) + (if s == t.symbol then Signed(t) else 0.0)
    ensures r.Keys == if PosOf(r, t.symbol) == 0.0 then positions.Keys - {t.symbol} else positions.Keys + {t.symbol}
  {
    if t.fillSize == 0.0 then positions
    else
      var size := PosOf(positions, t.symbol) + Signed(t);
      if size == 0.0 then positions - {t.symbol}
      else positions[t.symbol := Position(t.symbol, size)]
  }

  /** The one cash formula: the starting balance less the net turnover, plus the value of
      the traded symbol's current position at the trade's fill price. */
  function CashFormula(initBalance: real, cumNetTurnover: real, currPos: real, fillPrice: real): real {
    initBalance - (cumNetTurnover - currPos * fillPrice)
  }

  /** Signed sum of the fills of `symbol` in a trade log. */
  function NetFilled(trades: seq<Trade>, symbol: string): real
    decreases |trades|
  {
    if trades == [] then 0.0
    else
      var t := trades[|trades| - 1];
      NetFilled(trades[..|trades| - 1], symbol) + (if t.symbol == symbol then Signed(t) else 0.0)
  }

  /** Signed turnover of a whole trade log. */
  function NetTurnover(trades: seq<Trade>): real
    decreases |trades|
  {
    if trades == [] then 0.0 else NetTurnover(trades[..|trades| - 1]) + Turnover(trades[|trades| - 1])
  }

  lemma NetFilledAppend(trades: seq<Trade>, t: Trade, symbol: string)
    ensures NetFilled(trades + [t], symbol) == NetFilled(trades, symbol) + (if t.symbol == symbol then Signed(t) else 0.0)
  {
    assert (trades + [t])[..|trades|] == trades;
  }

  lemma NetTurnoverAppend(trades: seq<Trade>, t: Trade)
    ensures NetTurnover(trades + [t]) == NetTurnover(trades) + Turnover(t)
  {
    assert (trades + [t])[..|trades|] == trades;
  }

  /** A fill keeps every size equal to the signed sum of the logged fills (invariant 1). */
  lemma FillConservesShares(positions: map<string, Position>, trades: seq<Trade>, t: Trade)
    requires PositionsWf(positions)
    requires forall s :: PosOf(positions, s) == NetFilled(trades, s)
    ensures forall s :: PosOf(ApplyFill(positions, t), s) == NetFilled(trades + [t], s)
  {
    forall s
      ensures PosOf(ApplyFill(positions, t), s) == NetFilled(trades + [t], s)
    {
      NetFilledAppend(trades, t, s);
    }
  }

  // ---------------------------------------------------------------------------
  // Task completion

  predicate AllFinished(os: seq<Order>) {
    forall i :: 0 <= i < |os| ==> IsFinished(os[i])
  }

  /** `order.copy(ind)` on every order of a batch whose entrust number matches. */
  function CopyIntoBatch(os: seq<Order>, ind: OrderStatusInd): (r: seq<Order>)
    ensures |r| == |os|
    ensures forall i :: 0 <= i < |os| ==> r[i] == if os[i].entrustNo == ind.entrustNo then ind else os[i]
  {
    seq(|os|, i requires 0 <= i < |os| => if os[i].entrustNo == ind.entrustNo then ind else os[i])
  }

  /** `task.data[entrust_no].copy(ind)` when the goal dictionary has that key. */
  function CopyIntoGoal(es: seq<GoalEntry>, ind: OrderStatusInd): (r: seq<GoalEntry>)
    ensures |r| == |es|
    ensures forall i :: 0 <= i < |es| ==> r[i].key == es[i].key
    ensures forall i :: 0 <= i < |es| && es[i].key == ind.entrustNo ==> r[i].order == ind
    ensures forall i :: 0 <= i < |es| && es[i].key != ind.entrustNo ==> r[i] == es[i]
    ensures DistinctKeys(es) ==> DistinctKeys(r)
  {
    seq(|es|, i requires 0 <= i < |es| => if es[i].key == ind.entrustNo then GoalEntry(es[i].key, ind) else es[i])
  }

  /** Whether an indication reaches the `i`-th order of a payload: the single order of a
      place_order task always, a batch order or a goal entry when its entrust number
      (its key) is the indication's. */
  predicate Reaches(p: Payload, ind: OrderStatusInd, i: int) {
    match p
    case PlaceOrder(_) => i == 0
    case PlaceBatchOrder(os) => 0 <= i < |os| && os[i].entrustNo == ind.entrustNo
    case GoalPortfolio(es) => 0 <= i < |es| && es[i].key == ind.entrustNo
    case BasketOrder => false
    case Unsupported(_) => false
  }

  /** What an order-status indication does to the payload of its task: the orders it
      reaches become the indication, the others are kept, and so are the kind, the
      number of orders and a goal dictionary's keys. */
  function CopyStatus(p: Payload, ind: OrderStatusInd): (r: Payload)
    ensures FunctionName(r) == FunctionName(p)
    ensures r.PlaceOrder? == p.PlaceOrder? && r.PlaceBatchOrder? == p.PlaceBatchOrder?
            && r.GoalPortfolio? == p.GoalPortfolio? && IsOrderKind(r) == IsOrderKind(p)
    ensures |PayloadOrders(r)| == |PayloadOrders(p)|
    ensures forall i :: 0 <= i < |PayloadOrders(p)| ==>
              PayloadOrders(r)[i] == if Reaches(p, ind, i) then ind else PayloadOrders(p)[i]
    ensures p.GoalPortfolio? ==> forall i :: 0 <= i < |p.entries| ==> r.entries[i].key == p.entries[i].key
    ensures !IsOrderKind(p) ==> r == p
    ensures WellFormedPayload(p) ==> WellFormedPayload(r)
  {
    match p
    case PlaceOrder(_) => PlaceOrder(ind)
    case PlaceBatchOrder(os) => PlaceBatchOrder(CopyIntoBatch(os, ind))
    case GoalPortfolio(es) => GoalPortfolio(CopyIntoGoal(es, ind))
    case BasketOrder => p
    case Unsupported(_) => p
  }

  /** After an indication is copied into a task, every order of the task is finished
      exactly when the indication is finished (if it reached an order) and every order it
      did not reach already was. */
  lemma {:induction false} CopyStatusCompletes(p: Payload, ind: OrderStatusInd)
    ensures AllFinished(PayloadOrders(CopyStatus(p, ind))) <==>
              ((exists i :: 0 <= i < |PayloadOrders(p)| && Reaches(p, ind, i)) ==> IsFinished(ind))
              && (forall i :: 0 <= i < |PayloadOrders(p)| && !Reaches(p, ind, i) ==> IsFinished(PayloadOrders(p)[i]))
  {
  }

  /** `_update_task_if_done` on a stored task: NotImplementedError for the kinds without
      orders; otherwise the task becomes Done exactly when every one of its orders is
      finished, and is left as it was when one is not. */
  function CheckDone(t: Task): (r: Result<Task>)
    ensures r.Success? <==> IsOrderKind(t.payload)
    ensures r.Failure? ==> r.error.NotImplemented?
    ensures r.Success? ==> r.value.taskId == t.taskId && r.value.payload == t.payload
    ensures r.Success? ==> (r.value.status == Done <==> t.status == Done || AllFinished(PayloadOrders(t.payload)))
    ensures r.Success? && !AllFinished(PayloadOrders(t.payload)) ==> r.value == t
  {
    match t.payload
    case PlaceOrder(o) =>
      assert AllFinished([o]) <==> IsFinished(o) by { assert [o][0] == o; }
      Success(if IsFinished(o) then t.(status := Done) else t)
    case PlaceBatchOrder(os) =>
      Success(if AllFinished(os) then t.(status := Done) else t)
    case GoalPortfolio(es) =>
      Success(if AllFinished(GoalOrders(es)) then t.(status := Done) else t)
    case BasketOrder => Failure(NotImplemented(""))
    case Unsupported(_) => Failure(NotImplemented(""))
  }

  /** A trade indication whose completion check cannot raise: a synthetic fill, one
      for an unknown task, or one whose task carries orders. */
  predicate TradeQuiet(tasks: map<int, Task>, t: Trade) {
    IsSentinel(t.entrustNo) || t.taskId !in tasks || IsOrderKind(tasks[t.taskId].payload)
  }

  /** An order-status indication whose completion check cannot raise: as for a trade,
      and also one that neither cancels nor rejects (only those re-check the task). */
  predicate StatusQuiet(tasks: map<int, Task>, ind: OrderStatusInd) {
    IsSentinel(ind.entrustNo) || ind.taskId !in tasks || !IsTerminalRelease(ind.status)
    || IsOrderKind(tasks[ind.taskId].payload)
  }

  /** Two task tables with the same ids, each task carrying orders in one exactly when
      it does in the other. */
  predicate KindsKept(before: map<int, Task>, after: map<int, Task>) {
    before.Keys == after.Keys
    && forall id :: id in before ==> IsOrderKind(after[id].payload) == IsOrderKind(before[id].payload)
  }

  /** Every trade of a sequence is quiet. */
  predicate AllQuiet(tasks: map<int, Task>, trades: seq<Trade>) {
    forall i :: 0 <= i < |trades| ==> TradeQuiet(tasks, trades[i])
  }

  /** Tables related by `KindsKept` agree on which trades are quiet. */
  lemma KindsKeptTrade(a: map<int, Task>, b: map<int, Task>, t: Trade)
    requires KindsKept(a, b)
    ensures TradeQuiet(a, t) <==> TradeQuiet(b, t)
  {
    if t.taskId in a {
      assert IsOrderKind(b[t.taskId].payload) == IsOrderKind(a[t.taskId].payload);
    }
  }

  /** Tables related by `KindsKept` agree on which order-status indications are quiet. */
  lemma KindsKeptStatus(a: map<int, Task>, b: map<int, Task>, ind: OrderStatusInd)
    requires KindsKept(a, b)
    ensures StatusQuiet(a, ind) <==> StatusQuiet(b, ind)
  {
    if ind.taskId in a {
      assert IsOrderKind(b[ind.taskId].payload) == IsOrderKind(a[ind.taskId].payload);
    }
  }

  /** `KindsKept` composes. */
  lemma KindsKeptTrans(a: map<int, Task>, b: map<int, Task>, c: map<int, Task>)
    requires KindsKept(a, b) && KindsKept(b, c)
    ensures KindsKept(a, c)
  {
  }

  /** Tables related by `KindsKept` agree on whether a whole sequence of trades is quiet. */
  lemma KindsKeptAllQuiet(a: map<int, Task>, b: map<int, Task>, trades: seq<Trade>)
    requires KindsKept(a, b)
    ensures AllQuiet(a, trades) <==> AllQuiet(b, trades)
  {
    forall i | 0 <= i < |trades| {
      KindsKeptTrade(a, b, trades[i]);
    }
  }

  // ---------------------------------------------------------------------------
  // Market value

  /** Σ price × size over a set of held symbols. */
  ghost function SumValue(syms: set<string>, positions: map<string, Position>, prices: map<string, real>): real
    requires syms <= positions.Keys && syms <= prices.Keys
    decreases syms
  {
    if syms == {} then 0.0
    else
      var s :| s in syms;
      prices[s] * positions[s].currentSize + SumValue(syms - {s}, positions, prices)
  }

  /** The sum does not depend on which symbol is taken out first. */
  lemma {:induction false} SumValueRemove(syms: set<string>, positions: map<string, Position>, prices: map<string, real>, x: string)
    requires syms <= positions.Keys && syms <= prices.Keys
    requires x in syms
    ensures SumValue(syms, positions, prices) == prices[x] * positions[x].currentSize + SumValue(syms - {x}, positions, prices)
    decreases syms
  {
    var y :| y in syms && SumValue(syms, positions, prices) == prices[y] * positions[y].currentSize + SumValue(syms - {y}, positions, prices);
    if y != x {
      SumValueRemove(syms - {y}, positions, prices, x);
      SumValueRemove(syms - {x}, positions, prices, y);
      assert syms - {y} - {x} == syms - {x} - {y};
    }
  }

  /** The sum over a disjoint union is the sum of the sums. */
  lemma {:induction false} SumValueUnion(a: set<string>, b: set<string>, positions: map<string, Position>, prices: map<string, real>)
    requires a + b <= positions.Keys && a + b <= prices.Keys
    requires a !! b
    ensures SumValue(a + b, positions, prices) == SumValue(a, positions, prices) + SumValue(b, positions, prices)
    decreases a
  {
    if a != {} {
      var x :| x in a;
      SumValueRemove(a + b, positions, prices, x);
      SumValueRemove(a, positions, prices, x);
      assert (a + b) - {x} == (a - {x}) + b;
      SumValueUnion(a - {x}, b, positions, prices);
    } else {
      assert a + b == b;
    }
  }

  /** `market_value` partitions the holdings: every held symbol is counted once, in the
      floating part when not suspended and in the frozen part when suspended. */
  lemma MarketValuePartition(holdings: set<string>, suspensions: set<string>, positions: map<string, Position>, prices: map<string, real>)
    requires holdings <= positions.Keys && holdings <= prices.Keys
    ensures (holdings - suspensions) + (holdings * suspensions) == holdings
    ensures (holdings - suspensions) !! (holdings * suspensions)
    ensures SumValue(holdings - suspensions, positions, prices) + SumValue(holdings * suspensions, positions, prices)
         == SumValue(holdings, positions, prices)
  {
    assert (holdings - suspensions) + (holdings * suspensions) == holdings;
    SumValueUnion(holdings - suspensions, holdings * suspensions, positions, prices);
  }
}

=== FILE: plans.dfy ===
/** The pure planning rules of the backtest drivers: the trading calendar and the
    rebalance-date step, the corporate-action adjustment arithmetic and the
    synthetic trades it emits, the before-open universe filter, the after-open
    cash split, the per-quote delivery order and the configuration check. */
module Plans {
  import opened Basic
  import opened Ledger

  // ---------------------------------------------------------------------------
  // Calendar and rebalance dates

  /** The trading calendar the driver consults: the trade-date test and the
      neighbouring trade dates of any date. */
  datatype Calendar = Calendar(isTradeDate: int -> bool, nextTradeDate: int -> int, lastTradeDate: int -> int)

  /** The next trade date lies strictly after a date, the last one strictly before,
      and both are trade dates. */
  ghost predicate CalendarWf(cal: Calendar) {
    forall d ::
      && d < cal.nextTradeDate(d) && cal.isTradeDate(cal.nextTradeDate(d))
      && cal.lastTradeDate(d) < d && cal.isTradeDate(cal.lastTradeDate(d))
  }

  /** The next period day (of the strategy's period, count and delay) lies after the date it starts from. */
  ghost predicate PeriodAdvances(periodDay: int -> int) {
    forall d :: d < periodDay(d)
  }

  /** The rebalance date after `d`: the next period day when it is a trade date, else
      the trade date after it. */
  function RebalanceTarget(cal: Calendar, periodDay: int -> int, d: int): (r: int)
    ensures CalendarWf(cal) ==> cal.isTradeDate(r) && periodDay(d) <= r
    ensures CalendarWf(cal) && PeriodAdvances(periodDay) ==> d < r
    ensures cal.isTradeDate(periodDay(d)) ==> r == periodDay(d)
    ensures !cal.isTradeDate(periodDay(d)) ==> r == cal.nextTradeDate(periodDay(d))
  {
    var p := periodDay(d);
    if cal.isTradeDate(p) then p else cal.nextTradeDate(p)
  }

  /** The trade date the driver moves to from `d`: the rebalance target when the
      gateway's matching has finished, else simply the next trade date. */
  function NextDay(cal: Calendar, periodDay: int -> int, matchFinished: bool, d: int): (r: int)
    ensures CalendarWf(cal) && PeriodAdvances(periodDay) ==> d < r && cal.isTradeDate(r)
    ensures !matchFinished ==> r == cal.nextTradeDate(d)
  {
    if matchFinished then RebalanceTarget(cal, periodDay, d) else cal.nextTradeDate(d)
  }

  // ---------------------------------------------------------------------------
  // Position adjustment for dividends and splits

  /** An adjust-factor column: (date, factor) rows in date order. */
  predicate FactorsPositive(ser: seq<(int, real)>) {
    forall i :: 0 <= i < |ser| ==> ser[i].1 > 0.0
  }

  /** The ratio of row `i` to the row before it, dated at row `i`. */
  function RatioAt(ser: seq<(int, real)>, i: int): (int, real)
    requires 1 <= i < |ser| && ser[i - 1].1 > 0.0
  {
    (ser[i].0, ser[i].1 / ser[i - 1].1)
  }

  /** `ser.div(ser.shift(1)).fillna(1.0)` keeping the entries different from 1: the ratio
      of each row to the row before it, for the rows whose factor differs. */
  function AdjustRatios(ser: seq<(int, real)>): (r: seq<(int, real)>)
    requires FactorsPositive(ser)
    ensures |r| <= |ser|
    ensures forall k :: 0 <= k < |r| ==> r[k].1 > 0.0 && r[k].1 != 1.0
    decreases |ser|
  {
    if |ser| < 2 then []
    else
      var n := |ser|;
      var ratio := ser[n - 1].1 / ser[n - 2].1;
      AdjustRatios(ser[..n - 1]) + (if ratio != 1.0 then [(ser[n - 1].0, ratio)] else [])
  }

  /** Every change of factor is replayed: a row whose factor differs from the previous
      row's contributes its ratio. */
  lemma {:induction false} AdjustRatiosComplete(ser: seq<(int, real)>, i: int)
    requires FactorsPositive(ser)
    requires 1 <= i < |ser| && ser[i].1 != ser[i - 1].1
    ensures RatioAt(ser, i) in AdjustRatios(ser)
    decreases |ser|
  {
    var n := |ser|;
    var init := ser[..n - 1];
    if i < n - 1 {
      AdjustRatiosComplete(init, i);
      assert RatioAt(init, i) == RatioAt(ser, i);
    } else {
      var ratio := ser[n - 1].1 / ser[n - 2].1;
      assert ratio * ser[n - 2].1 == ser[n - 1].1;
    }
  }

  /** Nothing else is replayed: every ratio comes from a row whose factor differs from
      the previous row's. */
  lemma {:induction false} AdjustRatiosSound(ser: seq<(int, real)>, k: int)
    requires FactorsPositive(ser)
    requires 0 <= k < |AdjustRatios(ser)|
    ensures exists i :: 1 <= i < |ser| && ser[i].1 != ser[i - 1].1 && AdjustRatios(ser)[k] == RatioAt(ser, i)
    decreases |ser|
  {
    var n := |ser|;
    var init := ser[..n - 1];
    if k < |AdjustRatios(init)| {
      AdjustRatiosSound(init, k);
      var i :| 1 <= i < |init| && init[i].1 != init[i - 1].1 && AdjustRatios(init)[k] == RatioAt(init, i);
      assert RatioAt(init, i) == RatioAt(ser, i);
    } else {
      var ratio := ser[n - 1].1 / ser[n - 2].1;
      assert AdjustRatios(ser)[k] == RatioAt(ser, n - 1) && ratio != 1.0;
      DivSelf(ser[n - 2].1);
    }
  }

  lemma DivSelf(x: real)
    requires x > 0.0
    ensures x / x == 1.0
  {
  }

  /** Rows in strictly increasing date order. */
  predicate DatesIncrease(ser: seq<(int, real)>) {
    forall i, j :: 0 <= i < j < |ser| ==> ser[i].0 < ser[j].0
  }

  /** The ratios keep the column's order: replayed oldest first. */
  lemma {:induction false} AdjustRatiosInOrder(ser: seq<(int, real)>)
    requires FactorsPositive(ser) && DatesIncrease(ser)
    ensures DatesIncrease(AdjustRatios(ser))
    decreases |ser|
  {
    if |ser| >= 2 {
      var n := |ser|;
      var init := ser[..n - 1];
      AdjustRatiosInOrder(init);
      forall k | 0 <= k < |AdjustRatios(init)|
        ensures AdjustRatios(init)[k].0 < ser[n - 1].0
      {
        AdjustRatiosSound(init, k);
      }
    }
  }

  /** `pos_old * ratio - pos_old`: how much a ratio would grow a position. */
  function AdjustDiff(p: real, ratio: real): real {
    p * ratio - p
  }

  /** One adjustment: the position scaled by the ratio when that grows it, else unchanged
      (a non-positive difference is skipped). */
  function AdjustStep(p: real, ratio: real): (q: real)
    ensures p <= q
    ensures q == p || q == p * ratio
    ensures ratio > 0.0 ==> (q > 0.0 <==> p > 0.0) && (q == 0.0 <==> p == 0.0)
  {
    var diff := AdjustDiff(p, ratio);
    if diff <= 0.0 then p
    else
      assert ratio > 0.0 ==> (p * ratio > 0.0 <==> p > 0.0) && (p * ratio == 0.0 <==> p == 0.0);
      p + diff
  }

  /** The position after every adjustment of a ratio series, first to last. */
  function AdjustedSize(p: real, ratios: seq<(int, real)>): real
    decreases |ratios|
  {
    if ratios == [] then p
    else AdjustStep(AdjustedSize(p, ratios[..|ratios| - 1]), ratios[|ratios| - 1].1)
  }

  /** Adjustment only buys: the size never drops, and with positive ratios its sign is
      kept, so a held symbol stays held and an absent one stays absent. */
  lemma {:induction false} AdjustedSizeBounds(p: real, ratios: seq<(int, real)>)
    requires forall k :: 0 <= k < |ratios| ==> ratios[k].1 > 0.0
    ensures p <= AdjustedSize(p, ratios)
    ensures AdjustedSize(p, ratios) > 0.0 <==> p > 0.0
    ensures AdjustedSize(p, ratios) == 0.0 <==> p == 0.0
    decreases |ratios|
  {
    if ratios != [] {
      AdjustedSizeBounds(p, ratios[..|ratios| - 1]);
    }
  }

  /** The synthetic BUY a dividend or split produces: price 0, every identifier 101010. */
  function AdjustTrade(symbol: string, size: real, date: int): Trade {
    Trade(PositionAdjustNo, PositionAdjustNo, symbol, Buy, 0.0, size, date, 0, PositionAdjustNo)
  }

  predicate IsAdjustTrade(t: Trade) {
    && t.taskId == PositionAdjustNo && t.entrustNo == PositionAdjustNo && t.fillNo == PositionAdjustNo
    && t.action == Buy && t.fillPrice == 0.0 && t.fillSize > 0.0 && t.fillTime == 0
  }

  /** The trade one ratio emits for a position of size `before`: a BUY of the growth,
      none when the difference is not positive. */
  function AdjustTail(symbol: string, before: real, ratio: (int, real)): (ts: seq<Trade>)
    ensures |ts| <= 1
    ensures forall k :: 0 <= k < |ts| ==> IsAdjustTrade(ts[k]) && ts[k].symbol == symbol
    ensures NetFilled(ts, symbol) == AdjustStep(before, ratio.1) - before
  {
    var diff := AdjustDiff(before, ratio.1);
    if diff > 0.0 then
      var ts := [AdjustTrade(symbol, diff, ratio.0)];
      assert ts[..0] == [];
      ts
    else []
  }

  /** The trades emitted for one symbol whose position starts at `p`: one per ratio whose
      difference is positive, sized by that difference. */
  function AdjustTrades(symbol: string, p: real, ratios: seq<(int, real)>): (ts: seq<Trade>)
    ensures |ts| <= |ratios|
    ensures forall k :: 0 <= k < |ts| ==> IsAdjustTrade(ts[k]) && ts[k].symbol == symbol
    decreases |ratios|
  {
    if ratios == [] then []
    else
      var n := |ratios|;
      AdjustTrades(symbol, p, ratios[..n - 1]) + AdjustTail(symbol, AdjustedSize(p, ratios[..n - 1]), ratios[n - 1])
  }

  /** One more ratio: the trades and the size of a longer prefix extend those of the shorter. */
  lemma AdjustPrefixStep(symbol: string, p: real, ratios: seq<(int, real)>, j: int)
    requires 0 <= j < |ratios|
    ensures var before := AdjustedSize(p, ratios[..j]);
      && AdjustTrades(symbol, p, ratios[..j + 1]) == AdjustTrades(symbol, p, ratios[..j]) + AdjustTail(symbol, before, ratios[j])
      && AdjustedSize(p, ratios[..j + 1]) == AdjustStep(before, ratios[j].1)
  {
    assert ratios[..j + 1][..j] == ratios[..j];
  }

  /** The tail is the one BUY of the difference when that is positive, else nothing. */
  lemma AdjustTailShape(symbol: string, before: real, ratio: (int, real))
    ensures var diff := AdjustDiff(before, ratio.1);
      && (diff > 0.0 ==> AdjustTail(symbol, before, ratio) == [AdjustTrade(symbol, diff, ratio.0)]
                         && AdjustStep(before, ratio.1) == before + diff)
      && (diff <= 0.0 ==> AdjustTail(symbol, before, ratio) == [] && AdjustStep(before, ratio.1) == before)
  {
  }

  lemma {:induction false} NetFilledConcat(a: seq<Trade>, b: seq<Trade>, symbol: string)
    ensures NetFilled(a + b, symbol) == NetFilled(a, symbol) + NetFilled(b, symbol)
    decreases |b|
  {
    if b != [] {
      var b0 := b[..|b| - 1];
      assert (a + b)[..|a + b| - 1] == a + b0;
      NetFilledConcat(a, b0, symbol);
    } else {
      assert a + b == a;
    }
  }

  /** The emitted trades account exactly for the adjustment: they move the symbol's net
      fills by the adjusted size less the starting size, and no other symbol's. */
  lemma {:induction false} AdjustTradesNet(symbol: string, p: real, ratios: seq<(int, real)>, s: string)
    ensures NetFilled(AdjustTrades(symbol, p, ratios), s) == if s == symbol then AdjustedSize(p, ratios) - p else 0.0
    decreases |ratios|
  {
    if ratios != [] {
      var n := |ratios|;
      var init := ratios[..n - 1];
      var before := AdjustedSize(p, init);
      var tail := AdjustTail(symbol, before, ratios[n - 1]);
      assert AdjustTrades(symbol, p, ratios) == AdjustTrades(symbol, p, init) + tail;
      assert AdjustedSize(p, ratios) == AdjustStep(before, ratios[n - 1].1);
      AdjustTradesNet(symbol, p, init, s);
      NetFilledConcat(AdjustTrades(symbol, p, init), tail, s);
      if s != symbol {
        NetFilledOther(tail, symbol, s);
      } else {
        assert NetFilled(tail, s) == AdjustStep(before, ratios[n - 1].1) - before;
      }
    }
  }

  /** Trades all of one symbol leave every other symbol's net fills at zero. */
  lemma {:induction false} NetFilledOther(ts: seq<Trade>, symbol: string, s: string)
    requires forall k :: 0 <= k < |ts| ==> ts[k].symbol == symbol
    requires s != symbol
    ensures NetFilled(ts, s) == 0.0
    decreases |ts|
  {
    if ts != [] {
      NetFilledOther(ts[..|ts| - 1], symbol, s);
    }
  }

  // ---------------------------------------------------------------------------
  // Delisting

  /** An instrument row: its listing and delisting dates. */
  datatype Instrument = Instrument(listDate: int, delistDate: int)

  /** The instruments whose delisting date lies in [start, end]. */
  function DelistedIn(instruments: map<string, Instrument>, start: int, end: int): (d: set<string>)
    ensures forall s :: s in d <==> s in instruments && start <= instruments[s].delistDate <= end
  {
    set s | s in instruments && start <= instruments[s].delistDate <= end
  }

  /** The synthetic SELL that closes a delisted holding: the whole size at the given
      close, every identifier 202020. */
  function DelistTrade(symbol: string, price: real, size: real, date: int): Trade {
    Trade(DelistAdjustNo, DelistAdjustNo, symbol, Sell, price, size, date, 0, DelistAdjustNo)
  }

  /** The fill a trade list leaves with the trade statistics of one date, trade by trade. */
  function SettleAll(stats: map<StatKey, TradeStat>, ts: seq<Trade>, date: int): map<StatKey, TradeStat>
    decreases |ts|
  {
    if ts == [] then stats else Settle(SettleAll(stats, ts[..|ts| - 1], date), ts[|ts| - 1], date)
  }

  lemma {:induction false} SettleAllConcat(stats: map<StatKey, TradeStat>, a: seq<Trade>, b: seq<Trade>, date: int)
    ensures SettleAll(stats, a + b, date) == SettleAll(SettleAll(stats, a, date), b, date)
    decreases |b|
  {
    if b != [] {
      var b0 := b[..|b| - 1];
      assert (a + b)[..|a + b| - 1] == a + b0;
      assert (a + b)[|a + b| - 1] == b[|b| - 1];
      SettleAllConcat(stats, a, b0, date);
    } else {
      assert a + b == a;
    }
  }

  // ---------------------------------------------------------------------------
  // Universe before the open

  /** Listed on `date`: known to the instrument table and strictly inside its listing window. */
  predicate Listed(instruments: map<string, Instrument>, date: int, s: string) {
    s in instruments && instruments[s].listDate < date < instruments[s].delistDate
  }

  /** The symbols flagged as index members in a snapshot, in snapshot order. */
  function IndexMembers(snapshot: seq<(string, bool)>): (r: seq<string>)
    ensures forall s :: s in r <==> (s, true) in snapshot
    decreases |snapshot|
  {
    if snapshot == [] then []
    else
      var n := |snapshot|;
      assert forall e :: e in snapshot <==> e in snapshot[..n - 1] || e == snapshot[n - 1];
      IndexMembers(snapshot[..n - 1]) + (if snapshot[n - 1].1 then [snapshot[n - 1].0] else [])
  }

  /** The listing-window filter, order preserved. */
  function KeepListed(syms: seq<string>, instruments: map<string, Instrument>, date: int): (r: seq<string>)
    ensures |r| <= |syms|
    ensures forall s :: s in r <==> s in syms && Listed(instruments, date, s)
    decreases |syms|
  {
    if syms == [] then []
    else
      var n := |syms|;
      assert forall s :: s in syms <==> s in syms[..n - 1] || s == syms[n - 1];
      KeepListed(syms[..n - 1], instruments, date) + (if Listed(instruments, date, syms[n - 1]) then [syms[n - 1]] else [])
  }

  /** The filter distributes over concatenation, so it keeps the relative order of the
      symbols it keeps. */
  lemma {:induction false} KeepListedConcat(a: seq<string>, b: seq<string>, instruments: map<string, Instrument>, date: int)
    ensures KeepListed(a + b, instruments, date) == KeepListed(a, instruments, date) + KeepListed(b, instruments, date)
    decreases |b|
  {
    if b != [] {
      var b0 := b[..|b| - 1];
      assert (a + b)[..|a + b| - 1] == a + b0;
      assert (a + b)[|a + b| - 1] == b[|b| - 1];
      KeepListedConcat(a, b0, instruments, date);
    } else {
      assert a + b == a;
    }
  }

  /** Filtering a filtered universe changes nothing. */
  lemma {:induction false} KeepListedIdempotent(syms: seq<string>, instruments: map<string, Instrument>, date: int)
    ensures KeepListed(KeepListed(syms, instruments, date), instruments, date) == KeepListed(syms, instruments, date)
    decreases |syms|
  {
    if syms != [] {
      var n := |syms|;
      var x := syms[n - 1];
      var k := KeepListed(syms[..n - 1], instruments, date);
      var tail := if Listed(instruments, date, x) then [x] else [];
      assert KeepListed(syms, instruments, date) == k + tail;
      KeepListedIdempotent(syms[..n - 1], instruments, date);
      KeepListedConcat(k, tail, instruments, date);
      assert KeepListed(tail, instruments, date) == tail by {
        if tail != [] {
          assert tail[..0] == [];
        }
      }
    }
  }

  /** `re_balance_plan_before_open`, steps 1 and 2: the index members of the snapshot when
      the data view defines a universe (else the configured universe), restricted to the
      symbols listed on `date`. */
  function RebalanceUniverse(universe: seq<string>, universeDefined: bool, snapshot: seq<(string, bool)>,
                             instruments: map<string, Instrument>, date: int): (r: seq<string>)
    ensures forall s :: s in r <==>
      Listed(instruments, date, s) && (if universeDefined then (s, true) in snapshot else s in universe)
  {
    KeepListed(if universeDefined then IndexMembers(snapshot) else universe, instruments, date)
  }

  // ---------------------------------------------------------------------------
  // Cash after the open

  /** The cash split of `re_balance_plan_after_open`. */
  datatype CashSplit = CashSplit(available: real, use: real, unuse: real)

  /** Cash available is the strategy's cash plus the floating market value; the used part
      is that scaled by the position ratio and the rest is left unused. */
  function CashPlan(cash: real, floatValue: real, positionRatio: real): (r: CashSplit)
    ensures r.available == cash + floatValue
    ensures r.use == r.available * positionRatio
    ensures r.use + r.unuse == r.available
    ensures 0.0 <= positionRatio <= 1.0 && 0.0 <= r.available ==> 0.0 <= r.use <= r.available && 0.0 <= r.unuse
    ensures positionRatio == 1.0 ==> r.unuse == 0.0
  {
    var available := cash + floatValue;
    ScaleWithin(available, positionRatio);
    CashSplit(available, available * positionRatio, available - available * positionRatio)
  }

  lemma ScaleWithin(x: real, k: real)
    ensures 0.0 <= x && 0.0 <= k <= 1.0 ==> 0.0 <= x * k <= x
  {
    assert x - x * k == x * (1.0 - k);
  }

  /** One target position the strategy's goal generation returns. */
  datatype GoalPosition = GoalPosition(symbol: string, size: real)

  // ---------------------------------------------------------------------------
  // Tick-driven delivery

  /** A bar quote handed to the strategy after the fills it caused. */
  datatype Quote = Quote(symbol: string, time: int, close: real)

  /** What the driver hands to the strategy, in order. */
  datatype Delivery = TradeDelivered(trade: Trade) | StatusDelivered(status: OrderStatusInd) | QuoteDelivered(quote: Quote)

  /** Each (trade, status) pair of a match result, trade first. */
  function Deliveries(results: seq<(Trade, OrderStatusInd)>): (r: seq<Delivery>)
    ensures |r| == 2 * |results|
    decreases |results|
  {
    if results == [] then []
    else
      var n := |results|;
      Deliveries(results[..n - 1]) + [TradeDelivered(results[n - 1].0), StatusDelivered(results[n - 1].1)]
  }

  /** The pair at position i is delivered at positions 2i (its trade) and 2i + 1 (its status). */
  lemma {:induction false} DeliveriesAt(results: seq<(Trade, OrderStatusInd)>, i: int)
    requires 0 <= i < |results|
    ensures Deliveries(results)[2 * i] == TradeDelivered(results[i].0)
    ensures Deliveries(results)[2 * i + 1] == StatusDelivered(results[i].1)
    decreases |results|
  {
    var n := |results|;
    if i < n - 1 {
      DeliveriesAt(results[..n - 1], i);
    }
  }

  /** A matched pair neither of whose handlers raises: both halves are quiet. */
  predicate PairQuiet(tasks: map<int, Task>, pair: (Trade, OrderStatusInd)) {
    TradeQuiet(tasks, pair.0) && StatusQuiet(tasks, pair.1)
  }

  /** An order-status indication the manager records: one for a known task that is not a
      synthetic adjustment. */
  predicate StatusApplies(taskIds: set<int>, ind: OrderStatusInd) {
    ind.taskId in taskIds && !IsSentinel(ind.entrustNo)
  }

  /** The order book after the status halves of a match result, in order, each recorded
      under its entrust number when it applies. */
  function OrdersAfter(orders: map<int, Order>, taskIds: set<int>, results: seq<(Trade, OrderStatusInd)>): map<int, Order>
    decreases |results|
  {
    if results == [] then orders
    else
      var n := |results|;
      var before := OrdersAfter(orders, taskIds, results[..n - 1]);
      var ind := results[n - 1].1;
      if StatusApplies(taskIds, ind) then before[ind.entrustNo := ind] else before
  }

  /** An entrust number that no applying status of the result names keeps its entry (or
      its absence). */
  lemma {:induction false} OrdersAfterUntouched(orders: map<int, Order>, taskIds: set<int>,
                                                results: seq<(Trade, OrderStatusInd)>, e: int)
    requires forall i :: 0 <= i < |results| && StatusApplies(taskIds, results[i].1) ==> results[i].1.entrustNo != e
    ensures e in OrdersAfter(orders, taskIds, results) <==> e in orders
    ensures e in orders ==> OrdersAfter(orders, taskIds, results)[e] == orders[e]
    decreases |results|
  {
    if results != [] {
      var n := |results|;
      assert forall i :: 0 <= i < n - 1 ==> results[..n - 1][i] == results[i];
      OrdersAfterUntouched(orders, taskIds, results[..n - 1], e);
    }
  }

  /** The order book holds, for each entrust number, the last applying status of the
      result that names it. */
  lemma {:induction false} OrdersAfterLatest(orders: map<int, Order>, taskIds: set<int>,
                                             results: seq<(Trade, OrderStatusInd)>, i: int)
    requires 0 <= i < |results| && StatusApplies(taskIds, results[i].1)
    requires forall j :: i < j < |results| && StatusApplies(taskIds, results[j].1) ==>
               results[j].1.entrustNo != results[i].1.entrustNo
    ensures results[i].1.entrustNo in OrdersAfter(orders, taskIds, results)
    ensures OrdersAfter(orders, taskIds, results)[results[i].1.entrustNo] == results[i].1
    decreases |results|
  {
    var n := |results|;
    if i < n - 1 {
      assert forall j :: 0 <= j < n - 1 ==> results[..n - 1][j] == results[j];
      OrdersAfterLatest(orders, taskIds, results[..n - 1], i);
    }
  }

  /** One more pair extends the delivered prefix by its trade, then its status. */
  lemma DeliveriesStep(results: seq<(Trade, OrderStatusInd)>, i: int)
    requires 0 <= i < |results|
    ensures Deliveries(results)[..2 * i] + [TradeDelivered(results[i].0)] == Deliveries(results)[..2 * i + 1]
    ensures Deliveries(results)[..2 * i] + [TradeDelivered(results[i].0), StatusDelivered(results[i].1)]
              == Deliveries(results)[..2 * i + 2]
  {
    DeliveriesAt(results, i);
    TakeTwoMore(Deliveries(results), 2 * i);
  }

  /** One more pair extends the order book by its status, when that applies. */
  lemma OrdersAfterStep(orders: map<int, Order>, taskIds: set<int>, results: seq<(Trade, OrderStatusInd)>, i: int)
    requires 0 <= i < |results|
    ensures var before := OrdersAfter(orders, taskIds, results[..i]);
      OrdersAfter(orders, taskIds, results[..i + 1])
        == if StatusApplies(taskIds, results[i].1) then before[results[i].1.entrustNo := results[i].1] else before
  {
    assert results[..i + 1][..i] == results[..i] && results[..i + 1][i] == results[i];
  }

  /** How the delivery of a match result that raised ends after `n` deliveries: at the
      pair `k` whose trade (`n == 2k + 1`) or status (`n == 2k + 2`) raised, every earlier
      pair quiet, pair `k` not, and the order book holding the statuses delivered. */
  predicate StoppedAt(tasks: map<int, Task>, orders0: map<int, Order>, orders: map<int, Order>,
                      results: seq<(Trade, OrderStatusInd)>, n: int)
  {
    forall k :: 0 <= k < |results| && 2 * k < n <= 2 * k + 2 ==>
      && (forall j :: 0 <= j < k ==> PairQuiet(tasks, results[j]))
      && !PairQuiet(tasks, results[k])
      && (n == 2 * k + 1 <==> !TradeQuiet(tasks, results[k].0))
      && orders == OrdersAfter(orders0, tasks.Keys, results[..n - k - 1])
  }

  /** The delivery stops at pair `i` after its trade alone or after both halves. */
  lemma StoppedAtPair(tasks: map<int, Task>, orders0: map<int, Order>, orders: map<int, Order>,
                      results: seq<(Trade, OrderStatusInd)>, i: int, m: int)
    requires 0 <= i < |results| && 1 <= m <= 2
    requires forall j :: 0 <= j < i ==> PairQuiet(tasks, results[j])
    requires !PairQuiet(tasks, results[i]) && (m == 1 <==> !TradeQuiet(tasks, results[i].0))
    requires orders == OrdersAfter(orders0, tasks.Keys, results[..i + m - 1])
    ensures StoppedAt(tasks, orders0, orders, results, 2 * i + m)
  {
    forall k | 0 <= k < |results| && 2 * k < 2 * i + m <= 2 * k + 2
      ensures k == i
    {
    }
  }

  /** The trade halves of a match result, in order. */
  function TradesOf(results: seq<(Trade, OrderStatusInd)>): (ts: seq<Trade>)
    ensures |ts| == |results|
    ensures forall i :: 0 <= i < |results| ==> ts[i] == results[i].0
  {
    seq(|results|, i requires 0 <= i < |results| => results[i].0)
  }

  /** The trades carried by a stream of deliveries, in delivery order. */
  function DeliveredTrades(ds: seq<Delivery>): (ts: seq<Trade>)
    ensures |ts| <= |ds|
    decreases |ds|
  {
    if ds == [] then []
    else
      var n := |ds|;
      DeliveredTrades(ds[..n - 1]) + (if ds[n - 1].TradeDelivered? then [ds[n - 1].trade] else [])
  }

  /** One more delivery adds its trade, if it carries one. */
  lemma DeliveredTradesSnoc(ds: seq<Delivery>, x: Delivery)
    ensures DeliveredTrades(ds + [x]) == DeliveredTrades(ds) + (if x.TradeDelivered? then [x.trade] else [])
  {
    assert (ds + [x])[..|ds|] == ds;
  }

  /** Processing a match result delivers its trades, and nothing else as trades, in the
      order the matcher listed them. */
  lemma {:induction false} DeliveriesCarryTrades(results: seq<(Trade, OrderStatusInd)>)
    ensures DeliveredTrades(Deliveries(results)) == TradesOf(results)
    decreases |results|
  {
    if results != [] {
      var n := |results|;
      var init := results[..n - 1];
      var before := Deliveries(init);
      var ds := Deliveries(results);
      DeliveriesCarryTrades(init);
      assert ds[..|ds| - 1] == before + [TradeDelivered(results[n - 1].0)];
      assert ds[..|ds| - 1][..|before|] == before;
      assert TradesOf(results) == TradesOf(init) + [results[n - 1].0];
    }
  }

  // ---------------------------------------------------------------------------
  // Configuration

  /** A configuration value: a date or a text such as a symbol list. */
  datatype PropValue = DateProp(date: int) | TextProp(text: string)

  /** What the configuration check can see of the context: whether a data view is
      attached, and that view's symbol list. */
  datatype Context = Context(hasDataview: bool, dataviewSymbol: string)

  /** The dates and the universe source the driver is set up with. */
  datatype Setup = Setup(startDate: PropValue, endDate: PropValue, universe: PropValue)

  /** `init_from_config` with the universe read from the key that was tested ('symbol'):
      both dates must be present (start date checked first), and the universe comes from
      'symbol' when present, else from the data view, else the call fails. */
  function InitFromConfig(props: map<string, PropValue>, ctx: Context): (r: Result<Setup>)
    ensures r.Success? <==> "start_date" in props && "end_date" in props && ("symbol" in props || ctx.hasDataview)
    ensures r.Success? ==> r.value.startDate == props["start_date"] && r.value.endDate == props["end_date"]
    ensures r.Success? ==> r.value.universe == if "symbol" in props then props["symbol"] else TextProp(ctx.dataviewSymbol)
    ensures r.Failure? ==> r.error.ValueError?
    ensures "start_date" !in props ==> r == Failure(ValueError("start_date must be provided in props."))
  {
    if "start_date" !in props then Failure(ValueError("start_date must be provided in props."))
    else if "end_date" !in props then Failure(ValueError("end_date must be provided in props."))
    else if "symbol" in props then Success(Setup(props["start_date"], props["end_date"], props["symbol"]))
    else if ctx.hasDataview then Success(Setup(props["start_date"], props["end_date"], TextProp(ctx.dataviewSymbol)))
    else Failure(ValueError("No dataview, no symbol either."))
  }

  /** `init_from_config` as written: it tests for 'symbol' but then reads 'universe'. */
  function InitFromConfigAsWritten(props: map<string, PropValue>, ctx: Context): (r: Result<Setup>)
    ensures "symbol" in props && "universe" !in props && "start_date" in props && "end_date" in props ==>
      r == Failure(KeyError("universe"))
    ensures "symbol" !in props ==> r == InitFromConfig(props, ctx)
  {
    if "start_date" !in props then Failure(ValueError("start_date must be provided in props."))
    else if "end_date" !in props then Failure(ValueError("end_date must be provided in props."))
    else if "symbol" in props then
      if "universe" in props then Success(Setup(props["start_date"], props["end_date"], props["universe"]))
      else Failure(KeyError("universe"))
    else if ctx.hasDataview then Success(Setup(props["start_date"], props["end_date"], TextProp(ctx.dataviewSymbol)))
    else Failure(ValueError("No dataview, no symbol either."))
  }

  /** A configuration naming its symbols under 'symbol' only: the as-written check fails
      with KeyError where the corrected one sets the universe from 'symbol'. */
  lemma SymbolConfigRejected()
    ensures var props := map["start_date" := DateProp(20170101), "end_date" := DateProp(20171231),
                              "symbol" := TextProp("000001.SH")];
      && InitFromConfigAsWritten(props, Context(false, "")) == Failure(KeyError("universe"))
      && InitFromConfig(props, Context(false, "")).Success?
      && InitFromConfig(props, Context(false, "")).value.universe == TextProp("000001.SH")
  {
  }

  // ---------------------------------------------------------------------------
  // The two calls the drivers make that do not fit the manager

  /** Attribute access on a position record, which has `current_size` and no `curr_size`. */
  function PositionAttr(p: Position, name: string): (r: Result<real>)
    ensures r.Success? <==> name == "current_size"
    ensures r.Success? ==> r.value == p.currentSize
    ensures r.Failure? ==> r.error == AttributeError(name)
  {
    if name == "current_size" then Success(p.currentSize) else Failure(AttributeError(name))
  }

  /** `position_adjust` for one held symbol as written: the size is read through
      `curr_size` inside the loop over the ratio series, so any factor change raises. */
  function PositionAdjustSymbolAsWritten(p: Position, ser: seq<(int, real)>): (r: Outcome)
    requires FactorsPositive(ser)
    ensures r.Ok? <==> AdjustRatios(ser) == []
  {
    if AdjustRatios(ser) == [] then Ok
    else
      match PositionAttr(p, "curr_size")
      case Success(_) => Ok
      case Failure(e) => Raised(e)
  }

  /** `delist_adjust` for one held delisted symbol as written: the size read raises. */
  function DelistSymbolAsWritten(p: Position): (r: Result<real>)
    ensures r == Failure(AttributeError("curr_size"))
  {
    PositionAttr(p, "curr_size")
  }

  /** A 10% bonus issue on a 1000-share holding: as written the adjustment raises; the
      corrected rule reads `current_size` and grows the position to 1100. */
  lemma BonusIssueAdjust()
    ensures var ser := [(20170103, 1.0), (20170104, 1.1)];
      && PositionAdjustSymbolAsWritten(Position("600000.SH", 1000.0), ser) == Raised(AttributeError("curr_size"))
      && AdjustedSize(1000.0, AdjustRatios(ser)) == 1100.0
  {
    var ser := [(20170103, 1.0), (20170104, 1.1)];
    assert ser[..1] == [(20170103, 1.0)];
    assert AdjustRatios(ser) == [(20170104, 1.1)];
    var rs := AdjustRatios(ser);
    assert rs[..0] == [];
  }

  /** Python's binding of `market_value(self, ref_prices, suspensions=None)` for a call
      with `positional` arguments after `self`. */
  function BindMarketValue(positional: nat): (r: Outcome)
    ensures r.Ok? <==> 1 <= positional <= 2
    ensures r.Raised? ==> r.error.TypeError?
  {
    if positional == 0 then Raised(TypeError("market_value() takes at least 2 arguments (1 given)"))
    else if positional <= 2 then Ok
    else Raised(TypeError("market_value() takes at most 3 arguments (" + (if positional == 3 then "4" else "more") + " given)"))
  }

  /** The after-open call passes the trade date, the prices and the excluded set: three
      positional arguments, one more than the manager's signature binds. */
  lemma AfterOpenCallAsWritten()
    ensures BindMarketValue(3).Raised? && BindMarketValue(3).error.TypeError?
    ensures BindMarketValue(2).Ok?
  {
  }
}

=== FILE: portfolio.dfy ===
/** The portfolio manager: the strategy's single record of tasks, orders,
    trades, positions, per-day trade statistics and cash. The strategy's
    callbacks reach it through explicit calls (`OnTrade`, `OnOrderStatus`);
    `forwarded` results say when the strategy's own handler runs next. */
module Portfolio {
  import opened Basic
  import opened Ledger

  /** The `has_unfinished` scan of `_update_task_if_done`: stops at the first unfinished order. */
  method HasUnfinished(os: seq<Order>) returns (hasUnfinished: bool)
    ensures hasUnfinished <==> !AllFinished(os)
  {
    hasUnfinished := false;
    var i := 0;
    while i < |os|
      invariant 0 <= i <= |os|
      invariant forall j :: 0 <= j < i ==> IsFinished(os[j])
    {
      if !IsFinished(os[i]) {
        hasUnfinished := true;
        break;
      }
      i := i + 1;
    }
  }

  /** The batch loop of `_on_order_status`: `order.copy(ind)` on every order whose entrust
      number matches the indication's. */
  method CopyIntoMatching(os: seq<Order>, ind: OrderStatusInd) returns (updated: seq<Order>)
    ensures updated == CopyIntoBatch(os, ind)
  {
    updated := os;
    var i := 0;
    while i < |os|
      invariant 0 <= i <= |os| && |updated| == |os|
      invariant forall j :: 0 <= j < i ==> updated[j] == if os[j].entrustNo == ind.entrustNo then ind else os[j]
      invariant forall j :: i <= j < |os| ==> updated[j] == os[j]
    {
      if os[i].entrustNo == ind.entrustNo {
        updated := updated[i := ind];
      }
      i := i + 1;
    }
  }

  class PortfolioManager {
    var tasks: map<int, Task>
    var orders: map<int, Order>
    var trades: seq<Trade>
    var cumNetTurnover: real
    var cash: real
    var initBalance: real
    var positions: map<string, Position>
    var tradeStats: map<StatKey, TradeStat>
    var holdings: set<string>

    /** Holdings are exactly the symbols with a stored position, and no stored position is flat. */
    ghost predicate PositionsTracked()
      reads this`holdings, this`positions
    {
      holdings == positions.Keys && PositionsWf(positions)
    }

    ghost predicate TasksWf()
      reads this`tasks
    {
      forall id :: id in tasks ==> tasks[id].taskId == id && WellFormedPayload(tasks[id].payload)
    }

    /** Share conservation: every symbol's size is the signed sum of its logged fills. */
    ghost predicate SharesConserved()
      reads this`positions, this`trades
    {
      forall s {:trigger NetFilled(trades, s)} :: PosOf(positions, s) == NetFilled(trades, s)
    }

    /** The cash ledger: the cumulative net turnover is the signed turnover of the log, and
        cash is given by the one formula applied at the last trade. */
    ghost predicate CashLedger()
      reads this`cumNetTurnover, this`trades, this`cash, this`initBalance, this`positions
    {
      && cumNetTurnover == NetTurnover(trades)
      && cash == if trades == [] then initBalance
                 else
                   var last := trades[|trades| - 1];
                   CashFormula(initBalance, cumNetTurnover, PosOf(positions, last.symbol), last.fillPrice)
    }

    ghost predicate Valid()
      reads this
    {
      PositionsTracked() && TasksWf() && SharesConserved() && CashLedger()
    }

    /** A manager whose starting balance is `init_balance`. */
    constructor (initBalance: real)
      ensures Valid()
      ensures this.initBalance == initBalance && cash == initBalance && cumNetTurnover == 0.0
      ensures tasks == map[] && orders == map[] && trades == []
      ensures positions == map[] && tradeStats == map[] && holdings == {}
    {
      tasks, orders, trades := map[], map[], [];
      cumNetTurnover := 0.0;
      this.initBalance := initBalance;
      cash := initBalance;
      positions, tradeStats, holdings := map[], map[], {};
    }

    // -------------------------------------------------------------------------
    // Lookups

    /** `get_pos`: the signed sum of the symbol's fills, 0 exactly when the symbol is not held. */
    function GetPos(symbol: string): (size: real)
      reads this
      requires Valid()
      ensures size == NetFilled(trades, symbol)
      ensures size == 0.0 <==> symbol !in holdings
    {
      if symbol in positions then positions[symbol].currentSize else 0.0
    }

    /** `get_position`: present exactly for held symbols, with their non-zero size. */
    function GetPosition(symbol: string): (r: Option<Position>)
      reads this
      requires Valid()
      ensures r.Some? <==> symbol in holdings
      ensures r.Some? ==> r.value.symbol == symbol && r.value.currentSize == NetFilled(trades, symbol) != 0.0
    {
      if symbol in positions then Some(positions[symbol]) else None
    }

    /** `get_task`: the task stored under the id, or nothing; never an error. */
    function GetTask(taskId: int): (r: Option<Task>)
      reads this
      requires Valid()
      ensures r.Some? <==> taskId in tasks
      ensures r.Some? ==> r.value == tasks[taskId] && r.value.taskId == taskId
    {
      if taskId in tasks then Some(tasks[taskId]) else None
    }

    /** `get_trade_stat` returns the stored statistics or nothing; where it returns nothing,
        `_get_trade_stat` hands out zero statistics for the symbol. */
    function GetTradeStat(symbol: string, date: int): (r: Option<TradeStat>)
      reads this
      ensures r.Some? <==> StatKey(symbol, date) in tradeStats
      ensures r.Some? ==> r.value == StatOrZero(tradeStats, symbol, date)
      ensures r.None? ==> StatOrZero(tradeStats, symbol, date) == TradeStat(symbol, 0.0, 0.0, 0.0, 0.0)
    {
      var k := StatKey(symbol, date);
      if k in tradeStats then Some(tradeStats[k]) else None
    }

    // -------------------------------------------------------------------------
    // Tasks

    /** `_update_trade_stat_from_order`. */
    method UpdateTradeStatFromOrder(o: Order, date: int, rollBack: bool)
      modifies this`tradeStats
      ensures tradeStats == Reserve(old(tradeStats), o, date, rollBack)
      ensures var before, after := StatOrZero(old(tradeStats), o.symbol, date), tradeStats[StatKey(o.symbol, date)];
        (if IsPositive(o.action) then after.buyWant - before.buyWant else after.sellWant - before.sellWant)
          == (if rollBack then -o.entrustSize else o.entrustSize)
    {
      var sign := 1.0;
      if rollBack {
        sign := sign * -1.0;
      }
      assert o.entrustSize * sign == if rollBack then -o.entrustSize else o.entrustSize;
      var t := StatOrZero(tradeStats, o.symbol, date);
      if IsPositive(o.action) {
        t := t.(buyWant := t.buyWant + o.entrustSize * sign);
      } else {
        t := t.(sellWant := t.sellWant + o.entrustSize * sign);
      }
      tradeStats := tradeStats[StatKey(o.symbol, date) := t];
    }

    /** `add_task`: the task is stored under its id (replacing a task with the same id, which
        only draws a warning); the want sizes of its orders are reserved on `date`; a basket
        order is stored and then refused. */
    method AddTask(task: Task, date: int) returns (r: Outcome, duplicate: bool)
      requires Valid()
      requires WellFormedPayload(task.payload)
      modifies this`tasks, this`tradeStats
      ensures Valid()
      ensures duplicate <==> task.taskId in old(tasks)
      ensures tasks == old(tasks)[task.taskId := task]
      ensures r == if task.payload.BasketOrder? then Raised(NotImplemented("basket_order")) else Ok
      ensures tradeStats == if IsOrderKind(task.payload)
                            then ReserveAll(old(tradeStats), PayloadOrders(task.payload), date)
                            else old(tradeStats)
    {
      duplicate := task.taskId in tasks;
      tasks := tasks[task.taskId := task];
      r := Ok;
      match task.payload {
      case PlaceOrder(o) =>
        UpdateTradeStatFromOrder(o, date, false);
        assert [o][..0] == [];
      case PlaceBatchOrder(os) =>
        var i := 0;
        while i < |os|
          invariant 0 <= i <= |os|
          invariant tradeStats == ReserveAll(old(tradeStats), os[..i], date)
          modifies this`tradeStats
        {
          UpdateTradeStatFromOrder(os[i], date, false);
          assert os[..i + 1][..i] == os[..i];
          i := i + 1;
        }
        assert os[..|os|] == os;
      case BasketOrder =>
        r := Raised(NotImplemented("basket_order"));
      case GoalPortfolio(es) =>
        var i := 0;
        while i < |es|
          invariant 0 <= i <= |es|
          invariant tradeStats == ReserveAll(old(tradeStats), GoalOrders(es[..i]), date)
          modifies this`tradeStats
        {
          UpdateTradeStatFromOrder(es[i].order, date, false);
          assert GoalOrders(es[..i + 1])[..i] == GoalOrders(es[..i]);
          i := i + 1;
        }
        assert es[..|es|] == es;
      case Unsupported(_) =>
      }
    }

    /** `_update_task_if_done`: nothing for an unknown id; otherwise the stored task is
        replaced as `CheckDone` says, or NotImplementedError is raised. */
    method UpdateTaskIfDone(taskId: int) returns (r: Outcome)
      requires TasksWf()
      modifies this`tasks
      ensures TasksWf()
      ensures taskId !in old(tasks) ==> r.Ok? && tasks == old(tasks)
      ensures taskId in old(tasks) ==>
        match CheckDone(old(tasks)[taskId])
        case Success(t) => r.Ok? && tasks == old(tasks)[taskId := t]
        case Failure(e) => r == Raised(e) && tasks == old(tasks)
    {
      if taskId !in tasks {
        return Ok;
      }
      var task := tasks[taskId];
      match task.payload {
      case PlaceOrder(o) =>
        if IsFinished(o) {
          task := task.(status := Done);
        }
      case PlaceBatchOrder(os) =>
        var hasUnfinished := HasUnfinished(os);
        if !hasUnfinished {
          task := task.(status := Done);
        }
      case GoalPortfolio(es) =>
        var hasUnfinished := HasUnfinished(GoalOrders(es));
        if !hasUnfinished {
          task := task.(status := Done);
        }
      case BasketOrder =>
        return Raised(NotImplemented(""));
      case Unsupported(_) =>
        return Raised(NotImplemented(""));
      }
      tasks := tasks[taskId := task];
      r := Ok;
    }

    // -------------------------------------------------------------------------
    // Order-status indications

    /** The payload update of `_on_order_status`: the indication is copied into the
        matching order(s) of its task. */
    method CopyIntoTask(ind: OrderStatusInd)
      requires TasksWf() && ind.taskId in tasks
      modifies this`tasks
      ensures TasksWf()
      ensures tasks == old(tasks)[ind.taskId := old(tasks)[ind.taskId].(payload := CopyStatus(old(tasks)[ind.taskId].payload, ind))]
    {
      var task := tasks[ind.taskId];
      match task.payload {
      case PlaceOrder(_) =>
        task := task.(payload := PlaceOrder(ind));
      case PlaceBatchOrder(os) =>
        var updated := CopyIntoMatching(os, ind);
        task := task.(payload := PlaceBatchOrder(updated));
      case GoalPortfolio(es) =>
        task := task.(payload := GoalPortfolio(CopyIntoGoal(es, ind)));
      case BasketOrder =>
      case Unsupported(_) =>
      }
      tasks := tasks[ind.taskId := task];
    }

    /** The release of `_on_order_status` on a Cancelled / Rejected indication. */
    method ReleaseTradeStat(ind: OrderStatusInd, date: int)
      modifies this`tradeStats
      ensures tradeStats == Release(old(tradeStats), ind, date)
    {
      var t := StatOrZero(tradeStats, ind.symbol, date);
      var releaseSize := ind.entrustSize - ind.fillSize;
      if IsPositive(ind.action) {
        t := t.(buyWant := t.buyWant - releaseSize);
      } else {
        t := t.(sellWant := t.sellWant - releaseSize);
      }
      tradeStats := tradeStats[StatKey(ind.symbol, date) := t];
    }

    /** The part of `_on_order_status` for an indication that applies: it is copied into
        the order book and into its task's payload, and a Cancelled / Rejected one
        releases the unfilled remainder from the want size of its side and re-checks the
        task. */
    method RecordStatus(ind: OrderStatusInd, date: int) returns (r: Outcome)
      requires Valid() && ind.taskId in tasks && !IsSentinel(ind.entrustNo)
      modifies this`orders, this`tasks, this`tradeStats
      ensures Valid()
      ensures orders == old(orders)[ind.entrustNo := ind]
      ensures var task := old(tasks)[ind.taskId];
        var copied := task.(payload := CopyStatus(task.payload, ind));
        if !IsTerminalRelease(ind.status) then
          tasks == old(tasks)[ind.taskId := copied] && tradeStats == old(tradeStats) && r.Ok?
        else
          && tradeStats == Release(old(tradeStats), ind, date)
          && match CheckDone(copied)
             case Success(t) => tasks == old(tasks)[ind.taskId := t] && r.Ok?
             case Failure(e) => tasks == old(tasks)[ind.taskId := copied] && r == Raised(e)
    {
      orders := orders[ind.entrustNo := ind];
      CopyIntoTask(ind);
      r := Ok;
      if ind.status == Cancelled || ind.status == Rejected {
        ReleaseTradeStat(ind, date);
        r := UpdateTaskIfDone(ind.taskId);
      }
    }

    /** `_on_order_status`: ignored (and not forwarded) for an unknown task or a system
        trade number; otherwise recorded as `RecordStatus` says, and forwarded unless the
        re-check raised. */
    method OnOrderStatus(ind: OrderStatusInd, date: int) returns (r: Outcome, forwarded: bool)
      requires Valid()
      modifies this`orders, this`tasks, this`tradeStats
      ensures Valid()
      ensures !(ind.taskId in old(tasks) && !IsSentinel(ind.entrustNo)) ==>
        r.Ok? && !forwarded && orders == old(orders) && tasks == old(tasks) && tradeStats == old(tradeStats)
      ensures ind.taskId in old(tasks) && !IsSentinel(ind.entrustNo) ==>
        && orders == old(orders)[ind.entrustNo := ind]
        && var task := old(tasks)[ind.taskId];
           var copied := task.(payload := CopyStatus(task.payload, ind));
           if !IsTerminalRelease(ind.status) then
             tasks == old(tasks)[ind.taskId := copied] && tradeStats == old(tradeStats) && r.Ok? && forwarded
           else
             && tradeStats == Release(old(tradeStats), ind, date)
             && match CheckDone(copied)
                case Success(t) => tasks == old(tasks)[ind.taskId := t] && r.Ok? && forwarded
                case Failure(e) => tasks == old(tasks)[ind.taskId := copied] && r == Raised(e) && !forwarded
      ensures r.Ok? <==> StatusQuiet(old(tasks), ind)
      ensures r.Raised? ==> r.error.NotImplemented?
      ensures KindsKept(old(tasks), tasks)
    {
      if ind.taskId !in tasks {
        return Ok, false;
      }
      if ind.entrustNo == PositionAdjustNo || ind.entrustNo == DelistAdjustNo {
        return Ok, false;
      }
      r := RecordStatus(ind, date);
      forwarded := r.Ok?;
    }

    // -------------------------------------------------------------------------
    // Trade indications

    /** `_update_position_by_trade_ind`. */
    method UpdatePositionByTradeInd(t: Trade)
      requires PositionsTracked()
      modifies this`positions, this`holdings
      ensures PositionsTracked()
      ensures positions == ApplyFill(old(positions), t)
    {
      if t.fillSize == 0.0 {
        return;
      }
      var pos := if t.symbol in positions then positions[t.symbol] else Position(t.symbol, 0.0);
      if IsPositive(t.action) {
        pos := pos.(currentSize := pos.currentSize + t.fillSize);
      } else {
        pos := pos.(currentSize := pos.currentSize - t.fillSize);
      }
      positions := positions[t.symbol := pos];
      if pos.currentSize == 0.0 {
        positions := positions - {t.symbol};
        // `holding_securities.remove` raises KeyError on a symbol it does not hold; a
        // position can only become flat from a held, non-zero start.
        assert t.symbol in holdings;
        holdings := holdings - {t.symbol};
      } else {
        holdings := holdings + {t.symbol};
      }
    }

    /** `_update_cash_from_trade_ind`, run after the position has moved. */
    method UpdateCashFromTradeInd(t: Trade)
      modifies this`cumNetTurnover, this`cash
      ensures cumNetTurnover == old(cumNetTurnover) + Turnover(t)
      ensures cash == CashFormula(initBalance, cumNetTurnover, PosOf(positions, t.symbol), t.fillPrice)
    {
      var currPos := PosOf(positions, t.symbol);
      var turnover := t.fillPrice * t.fillSize;
      if IsPositive(t.action) {
        cumNetTurnover := cumNetTurnover + turnover;
      } else {
        cumNetTurnover := cumNetTurnover - turnover;
      }
      cash := initBalance - (cumNetTurnover - currPos * t.fillPrice);
      assert cash == CashFormula(initBalance, cumNetTurnover, currPos, t.fillPrice);
    }

    /** `_update_trade_stat_from_trade_ind`. */
    method UpdateTradeStatFromTradeInd(t: Trade, date: int)
      modifies this`tradeStats
      ensures tradeStats == Settle(old(tradeStats), t, date)
    {
      var s := StatOrZero(tradeStats, t.symbol, date);
      if IsPositive(t.action) {
        s := s.(buyFilled := s.buyFilled + t.fillSize, buyWant := s.buyWant - t.fillSize);
      } else {
        s := s.(sellFilled := s.sellFilled + t.fillSize, sellWant := s.sellWant - t.fillSize);
      }
      tradeStats := tradeStats[StatKey(t.symbol, date) := s];
    }

    /** The bookkeeping half of `_on_trade`: log the trade, move the position, recompute
        cash and move the fill from want to filled. */
    method RecordFill(t: Trade, date: int)
      requires Valid()
      modifies this`trades, this`positions, this`holdings, this`cumNetTurnover, this`cash, this`tradeStats
      ensures Valid()
      ensures trades == old(trades) + [t]
      ensures positions == ApplyFill(old(positions), t)
      ensures cumNetTurnover == old(cumNetTurnover) + Turnover(t)
      ensures cash == CashFormula(initBalance, cumNetTurnover, PosOf(positions, t.symbol), t.fillPrice)
      ensures tradeStats == Settle(old(tradeStats), t, date)
    {
      ghost var positions0, trades0 := positions, trades;
      FillConservesShares(positions0, trades0, t);
      NetTurnoverAppend(trades0, t);
      trades := trades + [t];
      UpdatePositionByTradeInd(t);
      UpdateCashFromTradeInd(t);
      UpdateTradeStatFromTradeInd(t, date);
      assert trades[|trades| - 1] == t;
      assert SharesConserved();
    }

    /** `_on_trade`: the bookkeeping of `RecordFill`, then (for a market trade only) a
        re-check of the trade's task. */
    method OnTrade(t: Trade, date: int) returns (r: Outcome)
      requires Valid()
      modifies this`trades, this`positions, this`holdings, this`cumNetTurnover, this`cash, this`tradeStats, this`tasks
      ensures Valid()
      ensures trades == old(trades) + [t]
      ensures positions == ApplyFill(old(positions), t)
      ensures cumNetTurnover == old(cumNetTurnover) + Turnover(t)
      ensures cash == CashFormula(initBalance, cumNetTurnover, PosOf(positions, t.symbol), t.fillPrice)
      ensures tradeStats == Settle(old(tradeStats), t, date)
      ensures IsSentinel(t.entrustNo) || t.taskId !in old(tasks) ==> r.Ok? && tasks == old(tasks)
      ensures !IsSentinel(t.entrustNo) && t.taskId in old(tasks) ==>
        match CheckDone(old(tasks)[t.taskId])
        case Success(task) => r.Ok? && tasks == old(tasks)[t.taskId := task]
        case Failure(e) => r == Raised(e) && tasks == old(tasks)
      ensures r.Ok? <==> TradeQuiet(old(tasks), t)
      ensures r.Raised? ==> r.error.NotImplemented?
      ensures KindsKept(old(tasks), tasks)
    {
      RecordFill(t, date);
      r := Ok;
      if !(t.entrustNo == PositionAdjustNo || t.entrustNo == DelistAdjustNo) {
        r := UpdateTaskIfDone(t.taskId);
      }
    }

    // -------------------------------------------------------------------------
    // Valuation

    /** `market_value`: the held value split into the part not suspended (floating) and the
        suspended part (frozen); KeyError when a held symbol has no reference price. */
    method MarketValue(refPrices: map<string, real>, suspensions: set<string>) returns (r: Result<(real, real)>)
      requires Valid()
      ensures holdings <= refPrices.Keys ==>
        r == Success((SumValue(holdings - suspensions, positions, refPrices),
                      SumValue(holdings * suspensions, positions, refPrices)))
      ensures holdings <= refPrices.Keys ==>
        r.value.0 + r.value.1 == SumValue(holdings, positions, refPrices)
      ensures !(holdings <= refPrices.Keys) ==>
        r.Failure? && r.error.KeyError? && r.error.key in holdings && r.error.key !in refPrices
    {
      var floatValue, frozenValue := 0.0, 0.0;
      var todo := holdings;
      ghost var done: set<string> := {};
      while todo != {}
        invariant todo + done == holdings && todo !! done
        invariant done <= refPrices.Keys
        invariant floatValue == SumValue(done - suspensions, positions, refPrices)
        invariant frozenValue == SumValue(done * suspensions, positions, refPrices)
        decreases todo
      {
        var sec :| sec in todo;
        var size := positions[sec].currentSize;
        if sec !in refPrices {
          return Failure(KeyError(sec));
        }
        var price := refPrices[sec];
        var mvSec := price * size;
        var next := done + {sec};
        if sec in suspensions {
          SumValueRemove(next * suspensions, positions, refPrices, sec);
          assert next * suspensions - {sec} == done * suspensions;
          assert next - suspensions == done - suspensions;
          frozenValue := frozenValue + mvSec;
        } else {
          SumValueRemove(next - suspensions, positions, refPrices, sec);
          assert next - suspensions - {sec} == done - suspensions;
          assert next * suspensions == done * suspensions;
          floatValue := floatValue + mvSec;
        }
        todo, done := todo - {sec}, next;
      }
      MarketValuePartition(holdings, suspensions, positions, refPrices);
      r := Success((floatValue, frozenValue));
    }
  }
}

=== FILE: scenarios.dfy ===
/** Client runs of the portfolio manager on concrete indications: what the
    bookkeeping yields for a complete fill delivered in either order, for a
    partial fill followed by a cancellation, and for a repeated cancellation. */
module Scenarios {
  import opened Basic
  import opened Ledger
  import opened Portfolio

  const Sym: string := "600000.SH"
  const Day: int := 20170105

  /** Buy 1000 at 10, completely filled, delivered trade first and Filled status second
      (the order the tick-driven driver uses). The completion check runs on the trade,
      while the task still holds the unfilled order; the Filled status does not re-check,
      so the task stays Pending. The cash formula counts the new position at its fill
      price, so cash stays at the starting balance. */
  method FullFillTradeFirst() returns (pos: real, cash: real, status: TaskStatus)
    ensures pos == 1000.0
    ensures cash == 100000.0
    ensures status == Pending
  {
    var pm := new PortfolioManager(100000.0);
    var o := Order(1, 7, Sym, Buy, 1000.0, 0.0, Accepted);
    var r, duplicate := pm.AddTask(Task(7, PlaceOrder(o), Pending), Day);
    var fill := Trade(7, 1, Sym, Buy, 10.0, 1000.0, Day, 93000, 1);
    r := pm.OnTrade(fill, Day);
    assert pm.tasks[7].status == Pending;
    var forwarded;
    r, forwarded := pm.OnOrderStatus(o.(fillSize := 1000.0, status := Filled), Day);
    pos := pm.GetPos(Sym);
    cash := pm.cash;
    status := pm.tasks[7].status;
  }

  /** The same fill with the Filled status delivered before the trade: the trade's
      completion check sees the finished order and the task becomes Done. */
  method FullFillStatusFirst() returns (pos: real, status: TaskStatus)
    ensures pos == 1000.0
    ensures status == Done
  {
    var pm := new PortfolioManager(100000.0);
    var o := Order(1, 7, Sym, Buy, 1000.0, 0.0, Accepted);
    var r, duplicate := pm.AddTask(Task(7, PlaceOrder(o), Pending), Day);
    var forwarded;
    r, forwarded := pm.OnOrderStatus(o.(fillSize := 1000.0, status := Filled), Day);
    var fill := Trade(7, 1, Sym, Buy, 10.0, 1000.0, Day, 93000, 1);
    r := pm.OnTrade(fill, Day);
    pos := pm.GetPos(Sym);
    status := pm.tasks[7].status;
  }

  /** The order that the two cancellation runs share: sell 500, nothing filled yet. */
  const PartialSell: Order := Order(2, 8, Sym, Sell, 500.0, 0.0, Accepted)

  /** Build a 1000-share holding the day before, then place the sell task and receive a
      300-share fill of it. The order stored in the task has not seen the fill, so the
      task is still Pending. */
  method PartiallySold() returns (pm: PortfolioManager)
    ensures fresh(pm) && pm.Valid()
    ensures PosOf(pm.positions, Sym) == 700.0
    ensures pm.tasks == map[8 := Task(8, PlaceOrder(PartialSell), Pending)]
    ensures StatKey(Sym, Day) in pm.tradeStats
    ensures pm.tradeStats[StatKey(Sym, Day)] == TradeStat(Sym, 0.0, 200.0, 0.0, 300.0)
  {
    pm := new PortfolioManager(100000.0);
    var r := pm.OnTrade(Trade(1, 1, Sym, Buy, 10.0, 1000.0, Day - 1, 93000, 1), Day - 1);
    assert PosOf(pm.positions, Sym) == 1000.0;
    assert StatKey(Sym, Day) !in pm.tradeStats;
    var duplicate;
    r, duplicate := pm.AddTask(Task(8, PlaceOrder(PartialSell), Pending), Day);
    assert [PartialSell][..0] == [];
    assert pm.tradeStats[StatKey(Sym, Day)] == TradeStat(Sym, 0.0, 500.0, 0.0, 0.0);
    r := pm.OnTrade(Trade(8, 2, Sym, Sell, 11.0, 300.0, Day, 100000, 2), Day);
  }

  /** Sell 500 of a 1000-share holding; 300 fill, then the order is cancelled. The
      position is 700, the want size is back to zero (300 moved to filled, 200
      released), and the task is Done only once the cancellation arrives. */
  method PartialFillThenCancel() returns (pos: real, sellWant: real, sellFilled: real, afterFill: TaskStatus, afterCancel: TaskStatus)
    ensures pos == 700.0
    ensures sellWant == 0.0 && sellFilled == 300.0
    ensures afterFill == Pending && afterCancel == Done
  {
    var pm := PartiallySold();
    afterFill := pm.tasks[8].status;
    var r, forwarded := pm.OnOrderStatus(PartialSell.(fillSize := 300.0, status := Cancelled), Day);
    afterCancel := pm.tasks[8].status;
    pos := pm.GetPos(Sym);
    sellWant := pm.tradeStats[StatKey(Sym, Day)].sellWant;
    sellFilled := pm.tradeStats[StatKey(Sym, Day)].sellFilled;
  }

  /** The same cancellation delivered twice releases the unfilled remainder twice:
      nothing in the manager recognises a repeated indication. */
  method RepeatedCancel() returns (sellWant: real)
    ensures sellWant == -200.0
  {
    var pm := PartiallySold();
    var cancel := PartialSell.(fillSize := 300.0, status := Cancelled);
    var r, forwarded := pm.OnOrderStatus(cancel, Day);
    assert pm.tradeStats[StatKey(Sym, Day)].sellWant == 0.0;
    r, forwarded := pm.OnOrderStatus(cancel, Day);
    sellWant := pm.tradeStats[StatKey(Sym, Day)].sellWant;
  }
}
